=== FILE: README.md ===
# Streaming speech-recognition client, modelled in Dafny

This project models the streaming recognition client of the voice assistant (`voice_assistant/speech_to_text.py`). The client talks to a speech-recognition service over a binary frame protocol:

- **Request frames.** It sends a gzipped JSON configuration request as a "full client request" with sequence number 1. It then sends the audio, cut into fixed-size segments, as "audio only request" frames numbered 2, 3, and so on. The final segment carries the NEG_WITH_SEQUENCE flag and a negated sequence number.
- **Replies.** It reads one reply per audio frame. Every reply except a full server response is ignored. So is a repeated sequence number, including a repeated missing one.
- **Transcript.** It keeps the latest non-empty transcript it has shown. It stops when the server flags a reply as the last package.

The model has eight modules:

- `Wire` covers big-endian `int.to_bytes`/`int.from_bytes`, including two's complement and Python's clamping slices.
- `FrameCodec` covers the protocol constants, `generate_header`, `generate_before_payload`, the request frame layout and `parse_response`.
- `Slicing` covers `slice_data`.
- `Client` covers `construct_request`, the segment-size choice in `execute`, the reply handling and `segment_data_processor`.
- `SessionProperties` holds the properties of whole sessions, and `Scenarios` holds worked sessions: the default segment sizes, a WAV cut, a one-segment session and three partial transcripts.
- `Wrappers` and `Errors` hold the result types and the exceptions the client can end with.

Pure code is modelled as functions. `parse_response`, `slice_data` and the loop of `segment_data_processor` are methods, each proved equal to the specification function beside it (`Parse`, `Sliced`, `Run` and `Stream`). The properties are proved about those functions.

Some inputs are parameters of the model:

- **The socket** is a scripted server, a list of reply frames. Its first reply is the handshake acknowledgement, which is discarded unread. Reading past the end of the list ends the session with `ConnectionClosed`.
- **gzip, JSON and byte decoding** are function-valued parameters: `Encoders` and `Decoders`. A library call that raises becomes an error result.
- **The client's settings** are a `ClientConfig` value whose constructor defaults are the client's own: 100 ms segments, wav, 16000 Hz, 16 bits, one channel and 1000-byte mp3 segments.
- **The WAV header values** (channels, sample width, frame rate) are given as an `Option`. `None` stands for a file the wave module cannot read.

A few edge cases follow the code, not the protocol description:

- A last-package flag ends the session only on a full server response whose sequence number is new. A duplicated or non-full reply carrying the flag does not end it.
- The wav branch cuts the whole file, header included, not just the PCM frames.
- A segment size of 0 fails in `range()` after the handshake. A negative segment size streams no audio and returns "".

## Model

| member | source | states |
|---|---|---|
| Wire.FromBytes | voice_assistant/speech_to_text.py:77-87 | `int.from_bytes`: unsigned readings lie in [0, 256^n); signed readings lie in [-256^n/2, 256^n/2) and are negative exactly when the top bit of the leading byte is set |
| Wire.Int32BE | voice_assistant/speech_to_text.py:57 | `to_bytes(4, signed=True)` succeeds exactly on [-2^31, 2^31) and gives 4 bytes |
| Wire.Int32RoundTrip | voice_assistant/speech_to_text.py:57 | reading the 4 signed bytes back with `signed=True` gives the number, for every number in range |
| Wire.Int32Canonical | voice_assistant/speech_to_text.py:57 | every 4-byte string is the signed encoding of the number it reads as, so the encoding is a bijection |
| Wire.UInt32BE | voice_assistant/speech_to_text.py:166 | `to_bytes(4, "big")` succeeds exactly on [0, 2^32) and gives 4 bytes |
| Wire.UInt32RoundTrip | voice_assistant/speech_to_text.py:196 | the unsigned length field reads back as the length |
| Wire.UInt32Canonical | voice_assistant/speech_to_text.py:87 | every 4-byte field is the unsigned encoding of what it reads as |
| Wire.SignedOfUnsigned | voice_assistant/speech_to_text.py:81 | a 4-byte field read signed is its unsigned reading, minus 2^32 from 2^31 up |
| Wire.UnsignedOfBigEndian | voice_assistant/speech_to_text.py:57 | the n low bytes of a number below 256^n read back as that number |
| Wire.BigEndianOfUnsigned | voice_assistant/speech_to_text.py:86-87 | every byte string is the n-byte encoding of its unsigned reading |
| Wire.Take | voice_assistant/speech_to_text.py:77 | `s[:n]` is a prefix of length min(n, len(s)) |
| Wire.Drop | voice_assistant/speech_to_text.py:78 | `s[i:]` has length len(s) - i, or 0 past the end, and `s[:i] + s[i:]` is `s` |
| FrameCodec.SplitHeader | voice_assistant/speech_to_text.py:62-67 | the six nibbles recompose the first three bytes |
| FrameCodec.GenerateHeader | voice_assistant/speech_to_text.py:38-52 | 4 bytes: the first is 0x11, the last is the reserved byte, and splitting the first three gives back version 1, header size 1, type, flags, serialisation and compression |
| FrameCodec.HeaderCanonical | voice_assistant/speech_to_text.py:46-51 | every 4-byte header beginning with 0x11 is the generated header of its own nibbles |
| FrameCodec.GenerateBeforePayload | voice_assistant/speech_to_text.py:55-57 | 4 bytes exactly for sequence numbers in [-2^31, 2^31), OverflowError otherwise |
| FrameCodec.BeforePayloadRoundTrip | voice_assistant/speech_to_text.py:55-57 | both directions: decoding the generated field gives the sequence number, and every 4-byte field is the field of the number it decodes to |
| FrameCodec.EncodeFrame | voice_assistant/speech_to_text.py:190-197 | a frame is header, sequence, length, body: it exists exactly when both numbers fit, is 12 + len(body) long, begins with the generated header (reserved byte 0 included) and ends with the body |
| FrameCodec.EncodeFrameFields | voice_assistant/speech_to_text.py:195-196 | bytes 4..8 read signed give the sequence number; bytes 8..12 read unsigned give the body length |
| FrameCodec.DecodePayload | voice_assistant/speech_to_text.py:92-97 | a gzip-flagged payload is gunzipped first, failing if gunzip fails, and then decoded as an unflagged payload would be; an unflagged payload is `json.loads` of it for JSON, succeeding exactly when that does, and its lossy text decoding otherwise |
| FrameCodec.Parse | voice_assistant/speech_to_text.py:60-101 | fails with a short-frame error exactly below 3 bytes; type and flags are the nibbles of byte 1; `is_last_package` is the 0x02 bit; a sequence number is present exactly when 0x01 is set; a full or error body exactly for those types; only those types can fail |
| FrameCodec.ParseResponse | voice_assistant/speech_to_text.py:60-101 | the step-by-step decoder equals `Parse` on every input |
| FrameCodec.ParseGeneratedHeader | voice_assistant/speech_to_text.py:62-84 | behind a generated header, type and flags come back, the sequence number is read from offset 4, and an acknowledgement carries nothing else |
| FrameCodec.ParseEncodedFullResponse | voice_assistant/speech_to_text.py:76-101 | a sequenced full response laid out as header, sequence, size, body parses to its sequence number, its decoded body and its size, read signed |
| FrameCodec.ParseErrorResponse | voice_assistant/speech_to_text.py:85-101 | an unsequenced error response, whatever its reserved byte and fields, parses to the unsigned code at offset 4, the unsigned size at offset 8 and its decoded message |
| FrameCodec.ParseUnsequencedFullResponse | voice_assistant/speech_to_text.py:76-101 | an unsequenced full response, whatever its reserved byte and size field, parses to no sequence number, the signed size at offset 4 and its decoded message |
| FrameCodec.ParseSequencedFullResponse | voice_assistant/speech_to_text.py:76-101 | a sequenced full response, whatever its reserved byte and fields, parses to the signed sequence number at offset 4, the signed size at offset 8 and its decoded message |
| FrameCodec.ParseSkipsHeaderExtension | voice_assistant/speech_to_text.py:63-69 | the payload region starts at 4 × the header-size nibble: a reply announcing k 4-byte header units parses exactly like the same reply with the k - 1 extra units removed and a header size of 1 |
| FrameCodec.ParseSequencedErrorResponse | voice_assistant/speech_to_text.py:76-101 | a sequenced error response, whatever its reserved byte and fields, parses to the signed sequence number at offset 4, the unsigned code at 8, the unsigned size at 12 and its decoded message |
| Slicing.SliceData | voice_assistant/speech_to_text.py:151-156 | the offset loop yields exactly `Sliced`: a zero size fails like `range()`, a negative size yields nothing, and a positive size yields `Chunks` |
| Slicing.ChunksConcat | voice_assistant/speech_to_text.py:154-156 | the chunks laid end to end give back the data |
| Slicing.ChunksShape | voice_assistant/speech_to_text.py:154-156 | every chunk is non-empty and at most `size` long; all but the last are exactly `size` long; exactly the last is flagged final |
| Slicing.ChunksCount | voice_assistant/speech_to_text.py:154 | there are ceil(len / size) chunks, so empty data yields none |
| Client.ConstructRequest | voice_assistant/speech_to_text.py:137-149 | the request carries the configured uid and audio settings, model "bigmodel" with punctuation enabled, and no request id |
| Client.TruncDiv1000 | voice_assistant/speech_to_text.py:233 | `int(x / 1000)` truncates toward zero, for negative products too |
| Client.SegmentSize | voice_assistant/speech_to_text.py:231-243 | wav: the truncated bytes of `seg_duration` ms from the WAV header; pcm: `rate*2*channel*seg_duration/1000` truncated; mp3: `mp3_seg_size`; any other format is the unsupported-format error, an unreadable WAV header is the only other failure, and every other case succeeds |
| Client.ConfigFrame | voice_assistant/speech_to_text.py:160-167 | the first frame exists exactly when the gzipped request fits a 4-byte length; it begins with the header 0x11, full client request with POS_SEQUENCE, JSON with gzip, reserved 0, and its body is the gzipped request |
| Client.ConfigFrameFields | voice_assistant/speech_to_text.py:161-166 | the first frame carries sequence number 1 and its body length |
| Client.AudioFrame | voice_assistant/speech_to_text.py:186-197 | it begins with the generated audio-only header: 0x11, NEG_WITH_SEQUENCE on the final chunk and POS_SEQUENCE otherwise (so the last-package bit is set exactly on the final chunk), JSON with gzip, reserved 0; it carries the gzipped chunk and exists exactly when the number and the length fit |
| Client.AudioFrameFields | voice_assistant/speech_to_text.py:195-196 | an audio frame carries its sequence number, negated on the final chunk, and its body length |
| Client.TranscriptText | voice_assistant/speech_to_text.py:211 | a reply without a payload gives ""; a JSON object gives its `result.text`; a payload that is not a JSON object fails as `.get` does |
| Client.Accept | voice_assistant/speech_to_text.py:203-219 | non-full replies and seen sequence numbers change nothing; a fresh full reply adds its sequence number; the shown text changes only to a non-empty transcript and always takes a new non-empty one; the loop stops exactly on a fresh full last package; a fresh full reply whose transcript cannot be read ends the session with that error |
| Client.SegmentDataProcessor | voice_assistant/speech_to_text.py:158-224 | the outcome and the frames sent are those of the session `Run` |
| Client.StreamChunks | voice_assistant/speech_to_text.py:176-224 | the loop with its counter, `seen_seq` and `printed_text` plays out exactly `Stream` over the audio frames numbered from 2 |
| Client.Round | voice_assistant/speech_to_text.py:186-222 | one pass of the loop body is the round `Step` of the (i+1)-th audio frame against the next reply |
| Client.Execute | voice_assistant/speech_to_text.py:226-243 | an unsupported format or an unreadable WAV fails with nothing sent; otherwise the session runs with the chosen segment size |
| SessionProperties.StreamFrames | voice_assistant/speech_to_text.py:185-198 | the frames go out in order, at most one per chunk, each built without error |
| SessionProperties.StreamLatestText | voice_assistant/speech_to_text.py:203-224 | the result is the transcript of the last reply shown (fresh, full, non-empty text) among the replies read, one per frame sent, or the starting text if none was shown |
| SessionProperties.StreamEarlyStop | voice_assistant/speech_to_text.py:218-219 | a successful session that stops before the last chunk stopped on a full last-package reply to its final frame |
| SessionProperties.StreamCompletes | voice_assistant/speech_to_text.py:185-224 | without a last package, a successful session sends every chunk |
| SessionProperties.StreamSucceeds | voice_assistant/speech_to_text.py:185-224 | when every frame is built, a reply comes for every frame, every reply parses and every full reply's transcript is readable, the session succeeds |
| SessionProperties.StreamFailure | voice_assistant/speech_to_text.py:183-211 | a failed session failed in its last round: the next frame could not be built, the server had closed before the reply, the reply did not parse, or it was a full response whose transcript could not be read, with that error |
| SessionProperties.StreamErrorsEnd | voice_assistant/speech_to_text.py:198-211 | errors end the session: every round before the last read a reply that parsed and, if fresh, had a readable transcript; a last round whose reply is missing, does not parse, or is fresh with an unreadable transcript makes the session fail with that error |
| SessionProperties.RunFrames | voice_assistant/speech_to_text.py:158-198 | the first frame sent is the configuration frame and is sent exactly when it can be built; the k-th after it is the audio frame of the k-th chunk; at most one frame per chunk besides it |
| SessionProperties.RunSequenceNumbers | voice_assistant/speech_to_text.py:160-198 | on the wire, the first frame is a full client request numbered 1 with POS_SEQUENCE; the k-th audio frame is numbered k + 1, or -(k + 1) with NEG_WITH_SEQUENCE on the final chunk |
| SessionProperties.AudioFrameNumbering | voice_assistant/speech_to_text.py:186-195 | the audio frame of the k-th chunk (from 0) reads as type, flag and number k + 2, negated on the final chunk |
| SessionProperties.RunLatestText | voice_assistant/speech_to_text.py:176-224 | the transcript returned is that of the last audio reply shown, or "" if none was; the handshake acknowledgement is never read as a reply |
| SessionProperties.DuplicateDropped | voice_assistant/speech_to_text.py:206-209 | a second full reply with the same sequence number, absent included, changes nothing and does not stop the session |
| Scenarios.WavSegmentExample | voice_assistant/speech_to_text.py:231-234 | 16 kHz mono 16-bit WAV in 100 ms segments is cut every 3200 bytes; 9600 bytes give three full chunks, only the third flagged final |
| Scenarios.OneRound | voice_assistant/speech_to_text.py:203-219 | one frame answered by a full response carrying a text ends with that text, last package or not |
| Scenarios.SingleSegmentRun | voice_assistant/speech_to_text.py:158-198 | audio that fits one segment is streamed as one final frame numbered 2 after the configuration frame |
| Scenarios.SingleSegmentSession | voice_assistant/speech_to_text.py:158-224 | audio that fits one segment sends the configuration frame and one final audio frame numbered -2, and returns the transcript of the one reply |
| Scenarios.ThreePartialTranscripts | voice_assistant/speech_to_text.py:185-224 | three full replies with distinct sequence numbers and non-empty transcripts, the third a last package, are each shown in turn; the session stops after three frames and returns the third text |
| Scenarios.DefaultSegmentSizes | voice_assistant/speech_to_text.py:119-132 | with the client's defaults, wav at 16 kHz mono 16-bit and pcm give 3200-byte segments, mp3 1000 bytes, and flac is rejected |

## Left out

- The WebSocket connection, `asyncio` and the `aiofiles` read are left out (lines 179-183 and 228). The socket is the scripted server list, and the file contents are an input.
- The request headers and credentials (lines 169-174) are left out. They only reach the connection.
- The pacing sleep between segments in streaming mode (line 222) is left out. It does not change what is sent or returned.
- gzip and JSON are left out. `gzip.compress`, `gzip.decompress`, `json.dumps`, `json.loads` and `bytes.decode` are function parameters, and nothing is assumed about them.
- Transcript values are simplified. A JSON reply is reduced to the value of `result.text`, with "" where either key is missing, or to "not a mapping". A `text` value that is not a string is not modelled.
- `uuid.uuid4()` is left out. The request id appears in no frame the model sends.
- The timestamped `print` of each new transcript is left out. It is output only.
- `read_wav_info` is left out. The wave module's reading of the header is an input, `WavParams`.
- `execute_one`, `record_audio` and `record_and_transcribe` are left out. They cover process start-up, stdin, temporary files and file deletion.
- Client.TruncDiv1000: `int(x / 1000)` goes through a float in Python. The model truncates the exact quotient, so products beyond 2^53, where the float rounds, are not modelled.
- FrameCodec.GenerateHeader: it takes nibble-range type, flags, serialisation and compression. Python would let a larger value spill into the neighbouring nibble or fail on `bytearray.append`, but every caller passes protocol constants.
- FrameCodec.Parse: the decoded size is kept as read, signed for full responses. Like the client, the model never compares it with the payload's real length.

=== FILE: client.dfy ===
/**
 * The recognition client: the configuration request, the segment size per
 * audio format, and the session that streams the chunks and collects the
 * transcript. The socket is a scripted server: `server[0]` answers the
 * configuration frame and `server[k]` answers the k-th audio frame.
 */
module Client {
  import opened Wrappers
  import opened Wire
  import opened Errors
  import opened FrameCodec
  import opened Slicing

  /** The constructor arguments the protocol core reads, with the defaults the client falls back on. */
  datatype ClientConfig = ClientConfig(
    segDuration: int := 100,    // milliseconds of audio per segment
    uid: string := "test",
    format: string := "wav",    // "wav", "pcm" or "mp3"
    rate: int := 16000,
    bits: int := 16,
    channel: int := 1,
    codec: string := "raw",
    streaming: bool := true,
    mp3SegSize: int := 1000)

  datatype AudioSpec = AudioSpec(format: string, sampleRate: int, bits: int, channel: int, codec: string)

  /** The configuration request sent in the first frame. */
  datatype Request = Request(uid: string, audio: AudioSpec, modelName: string, enablePunc: bool)

  /**
   * `construct_request`: the user and audio settings come from the
   * configuration, the model and punctuation are fixed; the request id it
   * is given does not appear in the request.
   */
  function ConstructRequest(cfg: ClientConfig): (r: Request)
    ensures r.uid == cfg.uid
    ensures r.audio == AudioSpec(cfg.format, cfg.rate, cfg.bits, cfg.channel, cfg.codec)
    ensures r.modelName == "bigmodel" && r.enablePunc
  {
    Request(cfg.uid, AudioSpec(cfg.format, cfg.rate, cfg.bits, cfg.channel, cfg.codec), "bigmodel", true)
  }

  /** The library calls that produce request bodies, given by the caller. */
  datatype Encoders = Encoders(
    gzip: Bytes -> Bytes,             // gzip.compress
    dumpRequest: Request -> Bytes)    // json.dumps(request).encode()

  /** What the wave module reads from a WAV header. */
  datatype WavParams = WavParams(channels: int, sampleWidth: int, frameRate: int)

  /** `q` is `x / 1000` truncated toward zero, as Python's `int(x / 1000)` gives it. */
  predicate TruncatedMillis(x: int, q: int)
  {
    && (x >= 0 ==> 0 <= q * 1000 <= x < q * 1000 + 1000)
    && (x < 0 ==> q * 1000 - 1000 < x <= q * 1000 <= 0)
  }

  function TruncDiv1000(x: int): (q: int)
    ensures TruncatedMillis(x, q)
  {
    if x >= 0 then x / 1000 else -((-x) / 1000)
  }

  /**
   * The segment size `execute` chooses: the bytes of `segDuration`
   * milliseconds of audio for wav (from the WAV header) and pcm (2 bytes per
   * sample), a fixed byte count for mp3; any other format is rejected.
   */
  function SegmentSize(cfg: ClientConfig, wav: Option<WavParams>): (r: Result<int, Error>)
    ensures r == Failure(UnsupportedFormat) <==> cfg.format !in {"wav", "pcm", "mp3"}
    ensures r == Failure(BadWav) <==> cfg.format == "wav" && wav.None?
    ensures r.Success? && cfg.format == "wav" ==>
      && wav.Some?
      && TruncatedMillis(wav.value.channels * wav.value.sampleWidth * wav.value.frameRate * cfg.segDuration, r.value)
    ensures r.Success? && cfg.format == "pcm" ==>
      TruncatedMillis(cfg.rate * 2 * cfg.channel * cfg.segDuration, r.value)
    ensures r.Success? && cfg.format == "mp3" ==> r.value == cfg.mp3SegSize
    ensures r.Failure? ==> r.error == UnsupportedFormat || r.error == BadWav
  {
    if cfg.format == "wav" then
      match wav
      case None => Failure(BadWav)
      case Some(w) => Success(TruncDiv1000(w.channels * w.sampleWidth * w.frameRate * cfg.segDuration))
    else if cfg.format == "pcm" then
      Success(TruncDiv1000(cfg.rate * 2 * cfg.channel * cfg.segDuration))
    else if cfg.format == "mp3" then
      Success(cfg.mp3SegSize)
    else
      Failure(UnsupportedFormat)
  }

  /** The first frame: the gzipped JSON request, sequence number 1. */
  function ConfigFrame(cfg: ClientConfig, enc: Encoders): (r: Result<Bytes, Error>)
    ensures r.Success? <==> |enc.gzip(enc.dumpRequest(ConstructRequest(cfg)))| < TwoTo32
    ensures r.Success? ==>
      && |r.value| >= 12
      && SplitHeader(r.value) == Header(ProtocolVersion, 1, FullClientRequest, PosSequence, JsonSerialization, GzipCompression)
      && r.value[..4] == GenerateHeader(FullClientRequest, PosSequence)
      && r.value[12..] == enc.gzip(enc.dumpRequest(ConstructRequest(cfg)))
  {
    EncodeFrame(FullClientRequest, PosSequence, 1, enc.gzip(enc.dumpRequest(ConstructRequest(cfg))))
  }

  /**
   * The frame carrying one audio chunk: a final chunk is flagged
   * NEG_WITH_SEQUENCE (its 0x02 bit is the last-package bit) and carries
   * the negated sequence number; every other chunk is flagged POS_SEQUENCE.
   */
  function AudioFrame(sequence: int, chunk: Chunk, enc: Encoders): (r: Result<Bytes, Error>)
    ensures r.Success? <==>
      -TwoTo31 <= (if chunk.last then -sequence else sequence) < TwoTo31 && |enc.gzip(chunk.data)| < TwoTo32
    ensures r.Success? ==>
      && |r.value| >= 12
      && SplitHeader(r.value).messageType == AudioOnlyRequest
      && SplitHeader(r.value).flags == (if chunk.last then NegWithSequence else PosSequence)
      && HasSequence(SplitHeader(r.value).flags)
      && (LastPackage(SplitHeader(r.value).flags) <==> chunk.last)
      && r.value[..4] == GenerateHeader(AudioOnlyRequest, if chunk.last then NegWithSequence else PosSequence)
      && SplitHeader(r.value).serialization == JsonSerialization && SplitHeader(r.value).compression == GzipCompression
      && r.value[12..] == enc.gzip(chunk.data)
  {
    EncodeFrame(AudioOnlyRequest, if chunk.last then NegWithSequence else PosSequence,
      if chunk.last then -sequence else sequence, enc.gzip(chunk.data))
  }

  /** The configuration frame carries sequence number 1 and the length of its body. */
  lemma ConfigFrameFields(cfg: ClientConfig, enc: Encoders)
    requires ConfigFrame(cfg, enc).Success?
    ensures var frame := ConfigFrame(cfg, enc).value;
      FromBytes(frame[4..8], true) == 1 && FromBytes(frame[8..12], false) == |frame| - 12
  {
    EncodeFrameFields(FullClientRequest, PosSequence, 1, enc.gzip(enc.dumpRequest(ConstructRequest(cfg))),
      JsonSerialization, GzipCompression);
  }

  /** An audio frame carries its sequence number, negated on the final chunk, and the length of its body. */
  lemma AudioFrameFields(sequence: int, chunk: Chunk, enc: Encoders)
    requires AudioFrame(sequence, chunk, enc).Success?
    ensures var frame := AudioFrame(sequence, chunk, enc).value;
      && FromBytes(frame[4..8], true) == (if chunk.last then -sequence else sequence)
      && FromBytes(frame[8..12], false) == |frame| - 12
  {
    EncodeFrameFields(AudioOnlyRequest, if chunk.last then NegWithSequence else PosSequence,
      if chunk.last then -sequence else sequence, enc.gzip(chunk.data), JsonSerialization, GzipCompression);
  }

  /** The session's variables besides the counter: the text shown so far, the sequence numbers seen. */
  datatype Session = Session(printed: string, seen: set<Option<int>>)

  /**
   * `res["payload_msg"]["result"]["text"]` with `.get` defaults: a missing
   * payload reads as "", a payload that is not a mapping raises.
   */
  function TranscriptText(r: Response): (out: Result<string, Error>)
    ensures r.body.NoPayload? ==> out == Success("")
    ensures !r.body.NoPayload? ==>
      && (out.Success? <==> r.body.msg.Json? && r.body.msg.doc.ResultText?)
      && (out.Success? ==> out.value == r.body.msg.doc.text)
      && (out.Failure? ==> out.error == NotAMapping)
  {
    var msg := match r.body
      case NoPayload => Json(ResultText(""))
      case Full(_, m) => m
      case ServerError(_, _, m) => m;
    match msg
    case Json(ResultText(t)) => Success(t)
    case Json(NotAMap) => Failure(NotAMapping)
    case Text(_) => Failure(NotAMapping)
  }

  /**
   * The handling of one reply: the new session state and whether the loop
   * stops. Only a full server response with a sequence number not seen
   * before (an absent one counts as a value) has any effect.
   */
  function Accept(s: Session, r: Response): (out: Result<(Session, bool), Error>)
    ensures r.messageType != FullServerResponse ==> out == Success((s, false))
    ensures r.sequence in s.seen ==> out == Success((s, false))
    ensures out.Failure? ==>
      r.messageType == FullServerResponse && r.sequence !in s.seen && TranscriptText(r).Failure?
    ensures out.Success? ==>
      var (s', stop) := out.value;
      && s'.seen == (if r.messageType == FullServerResponse then s.seen + {r.sequence} else s.seen)
      && (s'.printed == s.printed || (s'.printed != "" && TranscriptText(r) == Success(s'.printed)))
      && (stop <==> r.messageType == FullServerResponse && r.sequence !in s.seen && r.isLastPackage)
    ensures (r.messageType == FullServerResponse && r.sequence !in s.seen &&
             TranscriptText(r).Success? && TranscriptText(r).value != "") ==>
      out.Success? && out.value.0.printed == TranscriptText(r).value
    ensures r.messageType == FullServerResponse && r.sequence !in s.seen && TranscriptText(r).Failure? ==>
      out == Failure(TranscriptText(r).error)
  {
    if r.messageType != FullServerResponse || r.sequence in s.seen then Success((s, false))
    else
      var text :- TranscriptText(r);
      var printed := if text != "" && text != s.printed then text else s.printed;
      Success((Session(printed, s.seen + {r.sequence}), r.isLastPackage))
  }

  /** What a session did: how it ended, and the frames it sent. */
  datatype Trace = Trace(outcome: Result<string, Error>, sent: seq<Bytes>)

  /** The frames `sent` already went out before the rest of the session `t`. */
  function Prefixed(sent: seq<Bytes>, t: Trace): Trace
  {
    Trace(t.outcome, sent + t.sent)
  }

  /** The server's replies, decoded; the session reads only as many as it has rounds. */
  function ParseAll(replies: seq<Bytes>, dec: Decoders): seq<Result<Response, Error>>
  {
    seq(|replies|, k requires 0 <= k < |replies| => Parse(replies[k], dec))
  }

  /** How a round ends: the session is over with trace `t`, or frame `msg` went out and it goes on from `s`. */
  datatype Turn = Done(t: Trace) | Next(msg: Bytes, s: Session)

  /**
   * One round of the streaming phase: send the frame, take the next reply
   * (none left means the connection closed), handle it, and stop on a last
   * package.
   */
  function Step(frame: Result<Bytes, Error>, responses: seq<Result<Response, Error>>, s: Session): Turn
  {
    match frame
    case Failure(e) => Done(Trace(Failure(e), []))
    case Success(msg) =>
      if responses == [] then Done(Trace(Failure(ConnectionClosed), [msg]))
      else
        match responses[0]
        case Failure(e) => Done(Trace(Failure(e), [msg]))
        case Success(r) =>
          match Accept(s, r)
          case Failure(e) => Done(Trace(Failure(e), [msg]))
          case Success((s2, stop)) =>
            if stop then Done(Trace(Success(s2.printed), [msg])) else Next(msg, s2)
  }

  /**
   * The streaming phase, one round per audio frame. The frames are fixed in
   * advance because the counter goes up by one per round (`AudioFrames`),
   * the replies because the server is scripted.
   */
  function Stream(frames: seq<Result<Bytes, Error>>, responses: seq<Result<Response, Error>>, s: Session): Trace
    decreases |frames|
  {
    if frames == [] then Trace(Success(s.printed), [])
    else
      match Step(frames[0], responses, s)
      case Done(t) => t
      case Next(msg, s2) => Prefixed([msg], Stream(frames[1..], Rest(responses), s2))
  }

  /** The audio frames of the chunks, the k-th (from 0) with sequence number `first + k`. */
  function AudioFrames(chunks: seq<Chunk>, first: int, enc: Encoders): seq<Result<Bytes, Error>>
  {
    seq(|chunks|, k requires 0 <= k < |chunks| => AudioFrame(first + k, chunks[k], enc))
  }

  lemma AudioFrameAt(chunks: seq<Chunk>, first: int, enc: Encoders, k: nat)
    requires k < |chunks|
    ensures |AudioFrames(chunks, first, enc)| == |chunks|
    ensures AudioFrames(chunks, first, enc)[k] == AudioFrame(first + k, chunks[k], enc)
  {
  }

  /** The replies after the first, none if there are none. */
  function Rest<T>(xs: seq<T>): seq<T>
  {
    if xs == [] then [] else xs[1..]
  }

  /**
   * A whole session: send the configuration frame (sequence 1), discard one
   * reply as the handshake acknowledgement, then stream the chunks with
   * sequence numbers from 2 on.
   */
  function Run(cfg: ClientConfig, data: Bytes, segSize: int, server: seq<Bytes>, enc: Encoders, dec: Decoders): Trace
  {
    match ConfigFrame(cfg, enc)
    case Failure(e) => Trace(Failure(e), [])
    case Success(first) =>
      if server == [] then Trace(Failure(ConnectionClosed), [first])
      else
        match Sliced(data, segSize)
        case Failure(e) => Trace(Failure(e), [first])
        case Success(chunks) => Prefixed([first], Stream(AudioFrames(chunks, 2, enc), ParseAll(server[1..], dec), Session("", {})))
  }

  lemma PrefixedTwice(a: seq<Bytes>, b: seq<Bytes>, t: Trace)
    ensures Prefixed(a, Prefixed(b, t)) == Prefixed(a + b, t)
  {
    assert a + (b + t.sent) == (a + b) + t.sent;
  }

  /**
   * `segment_data_processor`, first part: build and send the configuration
   * frame, discard the handshake acknowledgement, cut the audio, then run
   * the streaming loop.
   */
  method SegmentDataProcessor(cfg: ClientConfig, data: Bytes, segSize: int, server: seq<Bytes>, enc: Encoders, dec: Decoders)
    returns (outcome: Result<string, Error>, sent: seq<Bytes>)
    ensures Trace(outcome, sent) == Run(cfg, data, segSize, server, enc, dec)
  {
    var counter := 1;
    var payload := enc.gzip(enc.dumpRequest(ConstructRequest(cfg)));
    var first := EncodeFrame(FullClientRequest, PosSequence, counter, payload);
    if first.Failure? {
      return Failure(first.error), [];
    }
    sent := [first.value];
    if server == [] {
      return Failure(ConnectionClosed), sent;
    }
    var replies := server[1..];  // the handshake acknowledgement is discarded

    var chunks := SliceData(data, segSize);
    if chunks.Failure? {
      return Failure(chunks.error), sent;
    }
    var more;
    outcome, more := StreamChunks(chunks.value, replies, enc, dec);
    sent := sent + more;
  }

  /**
   * `segment_data_processor`, the loop over the chunks: it keeps the
   * sequence counter, the set of sequence numbers seen and the text shown,
   * and plays one round per chunk.
   */
  method StreamChunks(chunks: seq<Chunk>, replies: seq<Bytes>, enc: Encoders, dec: Decoders)
    returns (outcome: Result<string, Error>, sent: seq<Bytes>)
    ensures Trace(outcome, sent) == Stream(AudioFrames(chunks, 2, enc), ParseAll(replies, dec), Session("", {}))
  {
    var counter := 1;
    var printed := "";
    var seen: set<Option<int>> := {};
    sent := [];
    ghost var frames, responses := AudioFrames(chunks, 2, enc), ParseAll(replies, dec);
    ghost var run := Stream(frames, responses, Session("", {}));
    assert run == Prefixed(sent, run);

    var i := 0;
    while i < |chunks|
      invariant 0 <= i <= |chunks| == |frames|
      invariant counter == i + 1
      invariant run == Prefixed(sent, Stream(frames[i..], responses[Clamp(i, |replies|)..], Session(printed, seen)))
    {
      ghost var rs := responses[Clamp(i, |replies|)..];
      StreamRound(frames[i..], rs, Session(printed, seen), sent);
      assert frames[i..][0] == frames[i] && frames[i..][1..] == frames[i + 1..];
      assert Rest(rs) == responses[Clamp(i + 1, |replies|)..];
      counter := counter + 1;
      var turn := Round(chunks, i, counter, replies, printed, seen, enc, dec);
      match turn
      case Done(t) =>
        outcome := t.outcome;
        sent := sent + t.sent;
        return;
      case Next(msg, s) =>
        sent := sent + [msg];
        printed, seen := s.printed, s.seen;
      i := i + 1;
    }
    outcome := Success(printed);
  }

  /** How one round moves the session along: it ends the session, or sends a frame and goes on. */
  lemma StreamRound(frames: seq<Result<Bytes, Error>>, responses: seq<Result<Response, Error>>, s: Session, sent: seq<Bytes>)
    requires frames != []
    ensures match Step(frames[0], responses, s)
      case Done(t) => Prefixed(sent, Stream(frames, responses, s)) == Trace(t.outcome, sent + t.sent)
      case Next(msg, s2) =>
        Prefixed(sent, Stream(frames, responses, s)) == Prefixed(sent + [msg], Stream(frames[1..], Rest(responses), s2))
  {
    match Step(frames[0], responses, s)
    case Done(t) =>
    case Next(msg, s2) =>
      PrefixedTwice(sent, [msg], Stream(frames[1..], Rest(responses), s2));
  }

  /** The position of the next reply, clamped to the replies there are. */
  function Clamp(i: nat, n: nat): nat
  {
    if i <= n then i else n
  }

  /**
   * One pass of the loop body of `segment_data_processor`: frame and send
   * the chunk, read the next reply, skip it unless it is a fresh full
   * server response, record its sequence number, show new text and stop
   * on a last package.
   */
  method Round(chunks: seq<Chunk>, i: nat, counter: int, replies: seq<Bytes>, printed: string, seen: set<Option<int>>,
               enc: Encoders, dec: Decoders)
    returns (turn: Turn)
    requires i < |chunks| && counter == i + 2
    ensures turn == Step(AudioFrames(chunks, 2, enc)[i], ParseAll(replies, dec)[Clamp(i, |replies|)..], Session(printed, seen))
  {
    AudioFrameAt(chunks, 2, enc, i);
    var chunk := chunks[i];
    var flag := if chunk.last then NegWithSequence else PosSequence;
    var body := enc.gzip(chunk.data);
    var msg := EncodeFrame(AudioOnlyRequest, flag, if chunk.last then -counter else counter, body);
    if msg.Failure? {
      return Done(Trace(Failure(msg.error), []));
    }
    if i >= |replies| {
      return Done(Trace(Failure(ConnectionClosed), [msg.value]));
    }
    var res := ParseResponse(replies[i], dec);
    assert ParseAll(replies, dec)[i..][0] == res;
    if res.Failure? {
      return Done(Trace(Failure(res.error), [msg.value]));
    }
    var r := res.value;
    if r.messageType != FullServerResponse || r.sequence in seen {
      return Next(msg.value, Session(printed, seen));
    }
    var seen' := seen + {r.sequence};
    var text := TranscriptText(r);
    if text.Failure? {
      return Done(Trace(Failure(text.error), [msg.value]));
    }
    var printed' := printed;
    if text.value != "" && text.value != printed {
      printed' := text.value;
    }
    if r.isLastPackage {
      return Done(Trace(Success(printed'), [msg.value]));
    }
    // pacing: asyncio.sleep(seg_duration / 1000) in streaming mode is not modelled
    turn := Next(msg.value, Session(printed', seen'));
  }

  /**
   * `execute`: chooses the segment size from the format and runs the
   * session on the whole file; an unsupported format fails before any
   * frame is sent.
   */
  method Execute(cfg: ClientConfig, raw: Bytes, wav: Option<WavParams>, server: seq<Bytes>, enc: Encoders, dec: Decoders)
    returns (outcome: Result<string, Error>, sent: seq<Bytes>)
    ensures cfg.format !in {"wav", "pcm", "mp3"} ==> outcome == Failure(UnsupportedFormat) && sent == []
    ensures SegmentSize(cfg, wav).Failure? ==> outcome == Failure(SegmentSize(cfg, wav).error) && sent == []
    ensures SegmentSize(cfg, wav).Success? ==>
      Trace(outcome, sent) == Run(cfg, raw, SegmentSize(cfg, wav).value, server, enc, dec)
  {
    var seg := SegmentSize(cfg, wav);
    if seg.Failure? {
      return Failure(seg.error), [];
    }
    // the wav branch slices the whole file, header included
    outcome, sent := SegmentDataProcessor(cfg, raw, seg.value, server, enc, dec);
  }
}

=== FILE: errors.dfy ===
/**
 * The ways a transcription session ends without a transcript. Each stands for
 * an exception the client raises or lets through.
 */
module Errors {
  datatype Error =
    | ShortFrame         // a reply shorter than 3 bytes: indexing its header raises IndexError
    | DecompressFailed   // gzip.decompress rejected a gzip-flagged payload
    | JsonFailed         // a JSON-flagged payload is not UTF-8 JSON
    | NotAMapping        // `.get` on a transcript payload that is not a JSON object
    | Overflow           // int.to_bytes: sequence or body length does not fit in 4 bytes
    | ZeroSegment        // range() with a step of 0 raises ValueError
    | ConnectionClosed   // recv() after the server has sent its last frame
    | BadWav             // the wave module cannot read the file's header
    | UnsupportedFormat  // an audio format other than wav, pcm and mp3
}

=== FILE: frame_codec.dfy ===
/**
 * The binary frame codec of the streaming recognition protocol: the 4-byte
 * header, the request frame layout, and the decoding of server replies.
 */
module FrameCodec {
  import opened Wrappers
  import opened Wire
  import opened Errors

  type nibble = x: int | 0 <= x < 0x10

  const ProtocolVersion: nibble := 1
  const DefaultHeaderSize: nibble := 1

  // message types
  const FullClientRequest: nibble := 1
  const AudioOnlyRequest: nibble := 2
  const FullServerResponse: nibble := 9
  const ServerAck: nibble := 11
  const ServerErrorResponse: nibble := 15

  // message-type-specific flags
  const NoSequence: nibble := 0
  const PosSequence: nibble := 1
  const NegSequence: nibble := 2
  const NegWithSequence: nibble := 3

  // serialisation methods
  const NoSerialization: nibble := 0
  const JsonSerialization: nibble := 1

  // compression types
  const NoCompression: nibble := 0
  const GzipCompression: nibble := 1

  /** The six nibbles of the first three header bytes. */
  datatype Header = Header(
    version: nibble, headerSize: nibble,
    messageType: nibble, flags: nibble,
    serialization: nibble, compression: nibble)

  /** Flag bit 0x01: a 4-byte signed sequence number follows the header. */
  predicate HasSequence(flags: nibble) { flags % 2 == 1 }

  /** Flag bit 0x02: the server has no further replies for this session. */
  predicate LastPackage(flags: nibble) { flags / 2 % 2 == 1 }

  /** Reads the high and low nibble of each of the first three bytes. */
  function SplitHeader(res: Bytes): (h: Header)
    requires |res| >= 3
    ensures res[0] == h.version * 0x10 + h.headerSize
    ensures res[1] == h.messageType * 0x10 + h.flags
    ensures res[2] == h.serialization * 0x10 + h.compression
  {
    Header(res[0] / 0x10, res[0] % 0x10, res[1] / 0x10, res[1] % 0x10, res[2] / 0x10, res[2] % 0x10)
  }

  /**
   * The 4-byte header: protocol version and header size (one 4-byte unit),
   * message type and flags, serialisation and compression, a reserved byte.
   * Reading it back nibble by nibble gives the fields it was built from.
   */
  function GenerateHeader(
    messageType: nibble := FullClientRequest,
    flags: nibble := NoSequence,
    serialization: nibble := JsonSerialization,
    compression: nibble := GzipCompression,
    reserved: byte := 0): (r: Bytes)
    ensures |r| == 4 && r[0] == 0x11 && r[3] == reserved
    ensures SplitHeader(r) == Header(ProtocolVersion, 1, messageType, flags, serialization, compression)
  {
    var headerSize := 1;
    [ProtocolVersion * 0x10 + headerSize, messageType * 0x10 + flags, serialization * 0x10 + compression, reserved]
  }

  /** Every header of this protocol version and size is a generated one. */
  lemma HeaderCanonical(h: Bytes)
    requires |h| == 4 && h[0] == 0x11
    ensures var f := SplitHeader(h);
      h == GenerateHeader(f.messageType, f.flags, f.serialization, f.compression, h[3])
  {
    var f := SplitHeader(h);
    assert f.version == 1 && f.headerSize == 1;
  }

  /** `generate_before_payload`: the sequence number as 4 signed big-endian bytes. */
  function GenerateBeforePayload(sequence: int): (r: Result<Bytes, Error>)
    ensures r.Success? <==> -TwoTo31 <= sequence < TwoTo31
    ensures r.Failure? ==> r.error == Overflow
    ensures r.Success? ==> |r.value| == 4
  {
    Int32BE(sequence).ToResult(Overflow)
  }

  /**
   * The sequence field is exactly two's complement: reading it back signed
   * gives the sequence number, and every 4 bytes are the field of the
   * number they read as.
   */
  lemma BeforePayloadRoundTrip(sequence: int, field: Bytes)
    requires -TwoTo31 <= sequence < TwoTo31
    requires |field| == 4
    ensures FromBytes(GenerateBeforePayload(sequence).value, true) == sequence
    ensures GenerateBeforePayload(FromBytes(field, true)) == Success(field)
  {
    Int32RoundTrip(sequence);
    Int32Canonical(field);
  }

  /**
   * A request frame as the session assembles it: header, sequence number
   * (4 bytes, signed), body length (4 bytes, unsigned), body.
   */
  function EncodeFrame(
    messageType: nibble, flags: nibble, sequence: int, body: Bytes,
    serialization: nibble := JsonSerialization,
    compression: nibble := GzipCompression): (r: Result<Bytes, Error>)
    ensures r.Success? <==> -TwoTo31 <= sequence < TwoTo31 && |body| < TwoTo32
    ensures r.Failure? ==> r.error == Overflow
    ensures r.Success? ==>
      && |r.value| == 12 + |body|
      && SplitHeader(r.value) == Header(ProtocolVersion, 1, messageType, flags, serialization, compression)
      && r.value[..4] == GenerateHeader(messageType, flags, serialization, compression)
      && r.value[12..] == body
  {
    var header := GenerateHeader(messageType, flags, serialization, compression);
    var before :- GenerateBeforePayload(sequence);
    var size :- UInt32BE(|body|).ToResult(Overflow);
    var frame := header + before + size + body;
    assert frame[4..8] == before && frame[8..12] == size && frame[12..] == body;
    assert frame[..4] == header;
    assert frame[..3] == header[..3];
    Success(frame)
  }

  /** The numeric fields of a request frame read back as the sequence number and the body length. */
  lemma EncodeFrameFields(
    messageType: nibble, flags: nibble, sequence: int, body: Bytes,
    serialization: nibble, compression: nibble)
    requires EncodeFrame(messageType, flags, sequence, body, serialization, compression).Success?
    ensures var frame := EncodeFrame(messageType, flags, sequence, body, serialization, compression).value;
      && FromBytes(frame[4..8], true) == sequence
      && FromBytes(frame[8..12], false) == |body|
  {
    var frame := EncodeFrame(messageType, flags, sequence, body, serialization, compression).value;
    var header := GenerateHeader(messageType, flags, serialization, compression);
    var before := GenerateBeforePayload(sequence).value;
    var size := UInt32BE(|body|).value;
    assert frame == header + before + size + body;
    assert frame[4..8] == before && frame[8..12] == size;
    Int32RoundTrip(sequence);
    UInt32RoundTrip(|body|);
  }

  /** What a JSON reply decodes to, as far as the session reads it. */
  datatype JsonDoc =
    | ResultText(text: string)  // an object whose `result.text` is `text` ("" where either key is missing)
    | NotAMap                   // the document or its `result` member is not an object

  /** A decoded reply payload. */
  datatype Payload =
    | Json(doc: JsonDoc)        // serialisation JSON
    | Text(text: string)        // any other serialisation: the bytes decoded ignoring errors

  datatype Body =
    | NoPayload
    | Full(payloadSize: int, msg: Payload)
    | ServerError(code: nat, payloadSize: int, msg: Payload)

  /** The decoded reply: the keys `parse_response` puts in its result. */
  datatype Response = Response(
    messageType: nibble,
    flags: nibble,
    isLastPackage: bool,
    sequence: Option<int>,
    body: Body)

  /** The library calls that decode a payload (gzip, UTF-8 and JSON), given by the caller. */
  datatype Decoders = Decoders(
    gunzip: Bytes -> Option<Bytes>,        // gzip.decompress, None where it raises
    loadJson: Bytes -> Option<JsonDoc>,    // json.loads(b.decode()), None where either raises
    decodeLossy: Bytes -> string)          // b.decode(errors="ignore")

  /** Decompresses when the compression nibble is gzip, then decodes as JSON or as text. */
  function DecodePayload(serialization: nibble, compression: nibble, raw: Bytes, dec: Decoders): (r: Result<Payload, Error>)
    ensures r.Failure? ==>
      (r.error == DecompressFailed && compression == GzipCompression && dec.gunzip(raw).None?) ||
      (r.error == JsonFailed && serialization == JsonSerialization)
    ensures r.Success? ==> (r.value.Json? <==> serialization == JsonSerialization)
    ensures compression == GzipCompression ==>
      match dec.gunzip(raw)
      case None => r == Failure(DecompressFailed)
      case Some(plain) => r == DecodePayload(serialization, NoCompression, plain, dec)
    ensures compression != GzipCompression && serialization != JsonSerialization ==>
      r == Success(Text(dec.decodeLossy(raw)))
    ensures compression != GzipCompression && serialization == JsonSerialization ==>
      (r.Success? <==> dec.loadJson(raw).Some?) && (r.Success? ==> r.value == Json(dec.loadJson(raw).value))
  {
    var plain :- if compression == GzipCompression then dec.gunzip(raw).ToResult(DecompressFailed) else Success(raw);
    if serialization == JsonSerialization then
      var doc :- dec.loadJson(plain).ToResult(JsonFailed);
      Success(Json(doc))
    else
      Success(Text(dec.decodeLossy(plain)))
  }

  /**
   * The reply decoder: the payload region starts at 4 * header size; an
   * optional sequence number takes its first 4 bytes; a full response then
   * carries a signed size and the message, an error response an unsigned
   * code, an unsigned size and the message. Short regions read as Python's
   * clamping slices do.
   */
  function Parse(res: Bytes, dec: Decoders): (r: Result<Response, Error>)
    ensures |res| < 3 <==> r == Failure(ShortFrame)
    ensures r.Success? ==>
      && r.value.messageType == res[1] / 0x10
      && r.value.flags == res[1] % 0x10
      && (r.value.isLastPackage <==> LastPackage(r.value.flags))
      && (r.value.sequence.Some? <==> HasSequence(r.value.flags))
    ensures r.Success? ==>
      && (r.value.body.Full? <==> r.value.messageType == FullServerResponse)
      && (r.value.body.ServerError? <==> r.value.messageType == ServerErrorResponse)
    ensures r.Failure? && |res| >= 3 ==>
      res[1] / 0x10 == FullServerResponse || res[1] / 0x10 == ServerErrorResponse
  {
    if |res| < 3 then Failure(ShortFrame)
    else
      var h := SplitHeader(res);
      var region := Drop(res, 4 * h.headerSize);
      var sequence := if HasSequence(h.flags) then Some(FromBytes(Take(region, 4), true)) else None;
      var payload := if HasSequence(h.flags) then Drop(region, 4) else region;
      var head := Response(h.messageType, h.flags, LastPackage(h.flags), sequence, NoPayload);
      if h.messageType == FullServerResponse then
        var msg :- DecodePayload(h.serialization, h.compression, Drop(payload, 4), dec);
        Success(head.(body := Full(FromBytes(Take(payload, 4), true), msg)))
      else if h.messageType == ServerErrorResponse then
        var msg :- DecodePayload(h.serialization, h.compression, Drop(payload, 8), dec);
        var code := FromBytes(Take(payload, 4), false);
        var size := FromBytes(Take(Drop(payload, 4), 4), false);
        Success(head.(body := ServerError(code, size, msg)))
      else
        Success(head)
  }

  /**
   * `parse_response`: reads the header, then consumes the payload step by
   * step, rebinding it past each field it takes.
   */
  method ParseResponse(res: Bytes, dec: Decoders) returns (r: Result<Response, Error>)
    ensures r == Parse(res, dec)
  {
    if |res| < 3 {
      return Failure(ShortFrame);
    }
    var messageType: nibble := res[1] / 0x10;
    var flags: nibble := res[1] % 0x10;
    var serialization: nibble := res[2] / 0x10;
    var compression: nibble := res[2] % 0x10;
    var headerSize := res[0] % 0x10;

    var payload := Drop(res, headerSize * 4);
    var rst := Response(messageType, flags, LastPackage(flags), None, NoPayload);
    if HasSequence(flags) {
      rst := rst.(sequence := Some(FromBytes(Take(payload, 4), true)));
      payload := Drop(payload, 4);
    }

    if messageType == FullServerResponse {
      var size := FromBytes(Take(payload, 4), true);
      var decoded := DecodePayload(serialization, compression, Drop(payload, 4), dec);
      if decoded.Failure? {
        return Failure(decoded.error);
      }
      rst := rst.(body := Full(size, decoded.value));
    } else if messageType == ServerAck {
      return Success(rst);
    } else if messageType == ServerErrorResponse {
      var code := FromBytes(Take(payload, 4), false);
      var size := FromBytes(Take(Drop(payload, 4), 4), false);
      var decoded := DecodePayload(serialization, compression, Drop(payload, 8), dec);
      if decoded.Failure? {
        return Failure(decoded.error);
      }
      rst := rst.(body := ServerError(code, size, decoded.value));
    }
    return Success(rst);
  }

  /**
   * Round trip of the header: behind a generated header, `Parse` recovers
   * the message type and flags, and the payload region starts at offset 4;
   * an acknowledgement carries nothing else.
   */
  lemma {:induction false} ParseGeneratedHeader(
    messageType: nibble, flags: nibble, serialization: nibble, compression: nibble,
    reserved: byte, tail: Bytes, dec: Decoders)
    ensures var r := Parse(GenerateHeader(messageType, flags, serialization, compression, reserved) + tail, dec);
      && (r.Success? ==>
        && r.value.messageType == messageType && r.value.flags == flags
        && r.value.isLastPackage == LastPackage(flags)
        && r.value.sequence == (if HasSequence(flags) then Some(FromBytes(Take(tail, 4), true)) else None))
      && (messageType == ServerAck ==>
        r == Success(Response(messageType, flags, LastPackage(flags), r.value.sequence, NoPayload)))
  {
    var h := GenerateHeader(messageType, flags, serialization, compression, reserved);
    var res := h + tail;
    assert res[..3] == h[..3];
    assert SplitHeader(res) == SplitHeader(h);
    assert Drop(res, 4) == tail;
  }

  /**
   * Round trip of a full server response laid out like a request frame:
   * parsing it yields its sequence number, its decoded body and its size,
   * which `parse_response` reads signed, so a body of 2^31 bytes or more
   * comes back with a negative size.
   */
  lemma {:induction false} ParseEncodedFullResponse(
    flags: nibble, sequence: int, body: Bytes, serialization: nibble, compression: nibble, dec: Decoders)
    requires HasSequence(flags)
    requires EncodeFrame(FullServerResponse, flags, sequence, body, serialization, compression).Success?
    ensures var r := Parse(EncodeFrame(FullServerResponse, flags, sequence, body, serialization, compression).value, dec);
      match DecodePayload(serialization, compression, body, dec)
      case Failure(e) => r == Failure(e)
      case Success(m) =>
        var size := if |body| < TwoTo31 then |body| else |body| - TwoTo32;
        r == Success(Response(FullServerResponse, flags, LastPackage(flags), Some(sequence), Full(size, m)))
  {
    var frame := EncodeFrame(FullServerResponse, flags, sequence, body, serialization, compression).value;
    EncodeFrameFields(FullServerResponse, flags, sequence, body, serialization, compression);
    assert Drop(frame, 4)[..4] == frame[4..8];
    assert Drop(Drop(frame, 4), 4) == frame[8..];
    assert frame[8..][..4] == frame[8..12];
    SignedOfUnsigned(frame[8..12]);
  }

  /**
   * An error response without a sequence number: header, unsigned code,
   * unsigned size, message.
   */
  lemma {:induction false} ParseErrorResponse(
    flags: nibble, reserved: byte, codeField: Bytes, sizeField: Bytes, msg: Bytes,
    serialization: nibble, compression: nibble, dec: Decoders)
    requires !HasSequence(flags) && |codeField| == 4 && |sizeField| == 4
    ensures var r := Parse(GenerateHeader(ServerErrorResponse, flags, serialization, compression, reserved)
        + codeField + sizeField + msg, dec);
      match DecodePayload(serialization, compression, msg, dec)
      case Failure(e) => r == Failure(e)
      case Success(m) =>
        r == Success(Response(ServerErrorResponse, flags, LastPackage(flags), None,
          ServerError(FromBytes(codeField, false), FromBytes(sizeField, false), m)))
  {
    var h := GenerateHeader(ServerErrorResponse, flags, serialization, compression, reserved);
    var payload := codeField + sizeField + msg;
    var frame := h + codeField + sizeField + msg;
    assert frame == h + payload;
    assert frame[..3] == h[..3];
    assert Drop(frame, 4) == payload;
    assert Take(payload, 4) == codeField;
    assert Drop(payload, 4) == sizeField + msg;
    assert Take(sizeField + msg, 4) == sizeField;
    assert Drop(payload, 8) == msg;
  }

  /**
   * A full server response without a sequence number: its signed size is
   * read right after the header, at offset 4.
   */
  lemma {:induction false} ParseUnsequencedFullResponse(
    flags: nibble, reserved: byte, sizeField: Bytes, msg: Bytes, serialization: nibble, compression: nibble, dec: Decoders)
    requires !HasSequence(flags) && |sizeField| == 4
    ensures var r := Parse(GenerateHeader(FullServerResponse, flags, serialization, compression, reserved) + sizeField + msg, dec);
      match DecodePayload(serialization, compression, msg, dec)
      case Failure(e) => r == Failure(e)
      case Success(m) =>
        r == Success(Response(FullServerResponse, flags, LastPackage(flags), None, Full(FromBytes(sizeField, true), m)))
  {
    var h := GenerateHeader(FullServerResponse, flags, serialization, compression, reserved);
    var frame := h + sizeField + msg;
    assert frame[..3] == h[..3];
    assert Drop(frame, 4) == sizeField + msg;
    assert Take(sizeField + msg, 4) == sizeField;
    assert Drop(sizeField + msg, 4) == msg;
  }

  /**
   * An error response with a sequence number: the sequence number takes
   * offset 4, so the unsigned code is read at offset 8, the unsigned size
   * at offset 12 and the message after it.
   */
  lemma {:induction false} ParseSequencedErrorResponse(
    flags: nibble, reserved: byte, seqField: Bytes, codeField: Bytes, sizeField: Bytes, msg: Bytes,
    serialization: nibble, compression: nibble, dec: Decoders)
    requires HasSequence(flags) && |seqField| == 4 && |codeField| == 4 && |sizeField| == 4
    ensures var r := Parse(GenerateHeader(ServerErrorResponse, flags, serialization, compression, reserved)
        + seqField + codeField + sizeField + msg, dec);
      match DecodePayload(serialization, compression, msg, dec)
      case Failure(e) => r == Failure(e)
      case Success(m) =>
        r == Success(Response(ServerErrorResponse, flags, LastPackage(flags), Some(FromBytes(seqField, true)),
          ServerError(FromBytes(codeField, false), FromBytes(sizeField, false), m)))
  {
    var h := GenerateHeader(ServerErrorResponse, flags, serialization, compression, reserved);
    var payload := codeField + sizeField + msg;
    var region := seqField + payload;
    var frame := h + seqField + codeField + sizeField + msg;
    assert frame == h + region;
    assert frame[..3] == h[..3];
    assert Drop(frame, 4) == region;
    assert Take(region, 4) == seqField;
    assert Drop(region, 4) == payload;
    assert Take(payload, 4) == codeField;
    assert Drop(payload, 4) == sizeField + msg;
    assert Take(sizeField + msg, 4) == sizeField;
    assert Drop(payload, 8) == msg;
  }

  /**
   * A full server response with a sequence number, whatever its reserved
   * byte: the signed sequence number is read at offset 4, the signed size
   * at offset 8 and the message after it.
   */
  lemma {:induction false} ParseSequencedFullResponse(
    flags: nibble, reserved: byte, seqField: Bytes, sizeField: Bytes, msg: Bytes,
    serialization: nibble, compression: nibble, dec: Decoders)
    requires HasSequence(flags) && |seqField| == 4 && |sizeField| == 4
    ensures var r := Parse(GenerateHeader(FullServerResponse, flags, serialization, compression, reserved)
        + seqField + sizeField + msg, dec);
      match DecodePayload(serialization, compression, msg, dec)
      case Failure(e) => r == Failure(e)
      case Success(m) =>
        r == Success(Response(FullServerResponse, flags, LastPackage(flags), Some(FromBytes(seqField, true)),
          Full(FromBytes(sizeField, true), m)))
  {
    var h := GenerateHeader(FullServerResponse, flags, serialization, compression, reserved);
    var payload := sizeField + msg;
    var region := seqField + payload;
    var frame := h + seqField + sizeField + msg;
    assert frame == h + region;
    assert frame[..3] == h[..3];
    assert Drop(frame, 4) == region;
    assert Take(region, 4) == seqField;
    assert Drop(region, 4) == payload;
    assert Take(payload, 4) == sizeField;
    assert Drop(payload, 4) == msg;
  }

  /**
   * The payload region starts at 4 * header size: a reply whose header
   * announces k 4-byte units parses as the same reply with the k - 1 units
   * after its first four bytes cut out and a header size of 1.
   */
  lemma ParseSkipsHeaderExtension(head: Bytes, ext: Bytes, tail: Bytes, dec: Decoders)
    requires |head| == 4 && head[0] % 0x10 >= 1 && |ext| == 4 * (head[0] % 0x10) - 4
    ensures Parse(head + ext + tail, dec) == Parse([head[0] / 0x10 * 0x10 + 1] + head[1..] + tail, dec)
  {
    var long := head + ext + tail;
    var short := [head[0] / 0x10 * 0x10 + 1] + head[1..] + tail;
    var hl, hs := SplitHeader(long), SplitHeader(short);
    assert hs.headerSize == 1 && hs.version == hl.version;
    assert long[1] == short[1] && long[2] == short[2];
    assert hl.messageType == hs.messageType && hl.flags == hs.flags;
    assert hl.serialization == hs.serialization && hl.compression == hs.compression;
    assert Drop(long, 4 * hl.headerSize) == tail;
    assert Drop(short, 4 * hs.headerSize) == tail;
  }
}

=== FILE: scenarios.dfy ===
/**
 * Worked sessions: the segment sizes, the cut of a 16 kHz mono 16-bit WAV
 * stream in 100 ms segments, a session whose audio fits in one segment, and
 * a session answered by three partial transcripts.
 */
module Scenarios {
  import opened Wrappers
  import opened Wire
  import opened Errors
  import opened FrameCodec
  import opened Slicing
  import opened Client
  import opened SessionProperties

  /**
   * Mono 16-bit audio at 16000 Hz in 100 ms segments is cut every 3200
   * bytes, so 9600 bytes make three full chunks and only the third is
   * flagged as the last.
   */
  lemma WavSegmentExample(cfg: ClientConfig, data: Bytes)
    requires cfg.format == "wav" && cfg.segDuration == 100 && |data| == 9600
    ensures SegmentSize(cfg, Some(WavParams(1, 2, 16000))) == Success(3200)
    ensures Sliced(data, 3200).Success?
    ensures var cs := Sliced(data, 3200).value;
      && |cs| == 3
      && |cs[0].data| == |cs[1].data| == |cs[2].data| == 3200
      && !cs[0].last && !cs[1].last && cs[2].last
  {
    var d1 := data[3200..];
    var d2 := d1[3200..];
    assert Chunks(d2, 3200) == [Chunk(d2, true)];
    assert Chunks(d1, 3200) == [Chunk(d1[..3200], false)] + Chunks(d2, 3200);
    assert Chunks(data, 3200) == [Chunk(data[..3200], false)] + Chunks(d1, 3200);
  }

  /**
   * A streaming phase of one frame whose reply is a full server response
   * carrying `text` ends with `text`, whether or not the reply is flagged
   * as the last package.
   */
  lemma OneRound(msg: Bytes, r: Response, text: string)
    requires r.messageType == FullServerResponse && TranscriptText(r) == Success(text)
    ensures Stream([Success(msg)], [Success(r)], Session("", {})) == Trace(Success(text), [msg])
  {
    var s := Session("", {});
    assert Accept(s, r).Success? && Accept(s, r).value.0.printed == text;
  }

  /**
   * Audio that fits in one segment makes a two-frame session: the
   * configuration frame, then one final audio frame numbered -2; the
   * session returns the transcript of the one full server response it
   * reads after the handshake acknowledgement, last package or not.
   */
  lemma SingleSegmentSession(
    cfg: ClientConfig, data: Bytes, segSize: int, ack: Bytes, reply: Bytes, r: Response, text: string,
    enc: Encoders, dec: Decoders)
    requires 0 < |data| <= segSize
    requires ConfigFrame(cfg, enc).Success? && |enc.gzip(data)| < TwoTo32
    requires Parse(reply, dec) == Success(r) && r.messageType == FullServerResponse
    requires TranscriptText(r) == Success(text)
    ensures AudioFrame(2, Chunk(data, true), enc).Success?
    ensures Run(cfg, data, segSize, [ack, reply], enc, dec)
      == Trace(Success(text), [ConfigFrame(cfg, enc).value, AudioFrame(2, Chunk(data, true), enc).value])
  {
    SingleSegmentRun(cfg, data, segSize, ack, reply, enc, dec);
    OneRound(AudioFrame(2, Chunk(data, true), enc).value, r, text);
  }

  /** Audio that fits in one segment is streamed as one final frame numbered 2, answered by the reply after the acknowledgement. */
  lemma SingleSegmentRun(cfg: ClientConfig, data: Bytes, segSize: int, ack: Bytes, reply: Bytes, enc: Encoders, dec: Decoders)
    requires 0 < |data| <= segSize && ConfigFrame(cfg, enc).Success?
    ensures Run(cfg, data, segSize, [ack, reply], enc, dec)
      == Prefixed([ConfigFrame(cfg, enc).value], Stream([AudioFrame(2, Chunk(data, true), enc)], [Parse(reply, dec)], Session("", {})))
  {
    var chunk := Chunk(data, true);
    assert Sliced(data, segSize) == Success([chunk]);
    assert AudioFrames([chunk], 2, enc) == [AudioFrame(2, chunk, enc)];
    assert [ack, reply][1..] == [reply];
    assert ParseAll([reply], dec) == [Parse(reply, dec)];
  }

  /**
   * With the default configuration, wav at 16 kHz mono 16-bit and pcm are
   * both cut every 3200 bytes, and mp3 every 1000 bytes.
   */
  lemma DefaultSegmentSizes()
    ensures SegmentSize(ClientConfig(), Some(WavParams(1, 2, 16000))) == Success(3200)
    ensures SegmentSize(ClientConfig(format := "pcm"), None) == Success(3200)
    ensures SegmentSize(ClientConfig(format := "mp3"), None) == Success(1000)
    ensures SegmentSize(ClientConfig(format := "flac"), None) == Failure(UnsupportedFormat)
  {
  }

  /**
   * The happy path: three audio frames answered by full responses with
   * distinct sequence numbers carrying non-empty partial transcripts, the
   * third flagged as the last package. Each reply in turn sets the text
   * shown; the session stops after the third frame whatever frames remain,
   * and returns the third text.
   */
  lemma ThreePartialTranscripts(
    frames: seq<Result<Bytes, Error>>, m1: Bytes, m2: Bytes, m3: Bytes,
    more: seq<Result<Response, Error>>, r1: Response, r2: Response, r3: Response, t1: string, t2: string, t3: string)
    requires |frames| >= 3 && frames[0] == Success(m1) && frames[1] == Success(m2) && frames[2] == Success(m3)
    requires r1.messageType == r2.messageType == r3.messageType == FullServerResponse
    requires r1.sequence != r2.sequence && r1.sequence != r3.sequence && r2.sequence != r3.sequence
    requires TranscriptText(r1) == Success(t1) && TranscriptText(r2) == Success(t2) && TranscriptText(r3) == Success(t3)
    requires t1 != "" && t2 != "" && t3 != ""
    requires !r1.isLastPackage && !r2.isLastPackage && r3.isLastPackage
    ensures var responses := [Success(r1), Success(r2), Success(r3)] + more;
      && Shown(responses, 0, {}) && Shown(responses, 1, {}) && Shown(responses, 2, {})
      && Stream(frames, responses, Session("", {})) == Trace(Success(t3), [m1, m2, m3])
  {
    var responses := [Success(r1), Success(r2), Success(r3)] + more;
    var s1 := Session(t1, {r1.sequence});
    var s2 := Session(t2, {r1.sequence, r2.sequence});
    assert Step(frames[0], responses, Session("", {})) == Next(m1, s1);
    assert Rest(responses) == [Success(r2), Success(r3)] + more;
    assert Step(frames[1..][0], Rest(responses), s1) == Next(m2, s2);
    assert Rest(Rest(responses)) == [Success(r3)] + more;
    assert Step(frames[1..][1..][0], Rest(Rest(responses)), s2) == Done(Trace(Success(t3), [m3]));
    assert Stream(frames[1..][1..], Rest(Rest(responses)), s2) == Trace(Success(t3), [m3]);
    assert Stream(frames[1..], Rest(responses), s1) == Trace(Success(t3), [m2, m3]);
  }
}

=== FILE: session_props.dfy ===
/**
 * What a whole session does, stated over the specification functions
 * `Stream` and `Run` that the session methods are proved equal to: which
 * frames go out and with which sequence numbers, where the transcript
 * comes from, and when the session ends early.
 */
module SessionProperties {
  import opened Wrappers
  import opened Wire
  import opened Errors
  import opened FrameCodec
  import opened Slicing
  import opened Client

  /**
   * The streaming phase sends the frames in order, at most all of them:
   * the k-th frame it sends (from 0) is the k-th frame given, which was
   * built without error.
   */
  lemma {:induction false} StreamFrames(frames: seq<Result<Bytes, Error>>, responses: seq<Result<Response, Error>>, s: Session)
    ensures var t := Stream(frames, responses, s);
      && |t.sent| <= |frames|
      && forall k :: 0 <= k < |t.sent| ==> frames[k] == Success(t.sent[k])
    decreases |frames|
  {
    if frames != [] {
      match Step(frames[0], responses, s)
      case Done(_) =>
      case Next(msg, s2) =>
        var rest := Stream(frames[1..], Rest(responses), s2);
        StreamFrames(frames[1..], Rest(responses), s2);
        var t := Stream(frames, responses, s);
        assert t.sent == [msg] + rest.sent;
        forall k | 1 <= k < |t.sent|
          ensures frames[k] == Success(t.sent[k])
        {
          assert t.sent[k] == rest.sent[k - 1] && frames[1..][k - 1] == frames[k];
        }
    }
  }

  /**
   * Reply j is a full server response whose sequence number (an absent one
   * counting as a value) is neither in `seen` nor carried by an earlier
   * full response.
   */
  predicate Fresh(responses: seq<Result<Response, Error>>, j: nat, seen: set<Option<int>>)
    requires j < |responses|
  {
    && responses[j].Success?
    && responses[j].value.messageType == FullServerResponse
    && responses[j].value.sequence !in seen
    && forall i :: 0 <= i < j && responses[i].Success? && responses[i].value.messageType == FullServerResponse ==>
         responses[i].value.sequence != responses[j].value.sequence
  }

  /**
   * Reply j is fresh and carries a non-empty transcript: its text becomes
   * the text shown, or already is it (the client prints it only in the
   * first case).
   */
  predicate Shown(responses: seq<Result<Response, Error>>, j: nat, seen: set<Option<int>>)
    requires j < |responses|
  {
    && Fresh(responses, j, seen)
    && TranscriptText(responses[j].value).Success?
    && TranscriptText(responses[j].value).value != ""
  }

  /**
   * The text a session returns: the transcript of the last reply it showed
   * among the replies it read (one per frame sent), or the text it started
   * with if it showed none.
   */
  lemma {:induction false} StreamLatestText(frames: seq<Result<Bytes, Error>>, responses: seq<Result<Response, Error>>, s: Session)
    ensures var t := Stream(frames, responses, s);
      t.outcome.Success? ==>
        && |t.sent| <= |responses|
        && (|| (&& t.outcome.value == s.printed
                && forall k :: 0 <= k < |t.sent| && k < |responses| ==> !Shown(responses, k, s.seen))
            || exists j :: && 0 <= j < |t.sent| && j < |responses| && Shown(responses, j, s.seen)
                           && t.outcome == TranscriptText(responses[j].value)
                           && forall k :: j < k < |t.sent| && k < |responses| ==> !Shown(responses, k, s.seen))
    decreases |frames|
  {
    var t := Stream(frames, responses, s);
    if frames != [] && t.outcome.Success? {
      var r0 := responses[0].value;
      var s2 := Accept(s, r0).value.0;
      assert Shown(responses, 0, s.seen) ==> s2.printed == TranscriptText(r0).value;
      assert !Shown(responses, 0, s.seen) ==> s2.printed == s.printed;
      match Step(frames[0], responses, s)
      case Done(d) =>
        assert t.sent == d.sent && |d.sent| == 1;
      case Next(msg, s2') =>
        assert s2' == s2;
        var rs := Rest(responses);
        var rest := Stream(frames[1..], rs, s2);
        StreamLatestText(frames[1..], rs, s2);
        assert t.sent == [msg] + rest.sent;
        ShownShift(responses, s, r0, s2);
        if exists j :: && 0 <= j < |rest.sent| && j < |rs| && Shown(rs, j, s2.seen)
                       && rest.outcome == TranscriptText(rs[j].value)
                       && forall k :: j < k < |rest.sent| && k < |rs| ==> !Shown(rs, k, s2.seen) {
          var j :| && 0 <= j < |rest.sent| && j < |rs| && Shown(rs, j, s2.seen)
                   && rest.outcome == TranscriptText(rs[j].value)
                   && forall k :: j < k < |rest.sent| && k < |rs| ==> !Shown(rs, k, s2.seen);
          assert Shown(responses, j + 1, s.seen) && rs[j] == responses[j + 1];
          forall k | j + 1 < k < |t.sent| && k < |responses|
            ensures !Shown(responses, k, s.seen)
          {
            assert !Shown(rs, k - 1, s2.seen);
          }
        } else {
          forall k | 1 <= k < |t.sent| && k < |responses|
            ensures !Shown(responses, k, s.seen)
          {
            assert !Shown(rs, k - 1, s2.seen);
          }
          if Shown(responses, 0, s.seen) {
            assert t.outcome == TranscriptText(responses[0].value);
          }
        }
    }
  }

  /**
   * After the first reply is handled, the replies still to come are fresh
   * exactly when they would have been fresh from the start.
   */
  lemma FreshShift(responses: seq<Result<Response, Error>>, s: Session, r0: Response, s2: Session)
    requires responses != [] && responses[0] == Success(r0) && Accept(s, r0).Success? && Accept(s, r0).value.0 == s2
    ensures forall k :: 1 <= k < |responses| ==> (Fresh(responses[1..], k - 1, s2.seen) <==> Fresh(responses, k, s.seen))
  {
    forall k | 1 <= k < |responses|
      ensures Fresh(responses[1..], k - 1, s2.seen) <==> Fresh(responses, k, s.seen)
    {
      var rs := responses[1..];
      assert rs[k - 1] == responses[k];
      if Fresh(responses, k, s.seen) {
        forall i | 0 <= i < k - 1 && rs[i].Success? && rs[i].value.messageType == FullServerResponse
          ensures rs[i].value.sequence != rs[k - 1].value.sequence
        {
          assert rs[i] == responses[i + 1];
        }
      }
      if Fresh(rs, k - 1, s2.seen) {
        forall i | 0 <= i < k && responses[i].Success? && responses[i].value.messageType == FullServerResponse
          ensures responses[i].value.sequence != responses[k].value.sequence
        {
          if i > 0 {
            assert rs[i - 1] == responses[i];
          }
        }
      }
    }
  }

  /**
   * After the first reply is handled, the replies still to come are shown
   * exactly when they would have been shown from the start.
   */
  lemma ShownShift(responses: seq<Result<Response, Error>>, s: Session, r0: Response, s2: Session)
    requires responses != [] && responses[0] == Success(r0) && Accept(s, r0).Success? && Accept(s, r0).value.0 == s2
    ensures forall k :: 1 <= k < |responses| ==> (Shown(responses[1..], k - 1, s2.seen) <==> Shown(responses, k, s.seen))
  {
    FreshShift(responses, s, r0, s2);
    forall k | 1 <= k < |responses|
      ensures Shown(responses[1..], k - 1, s2.seen) <==> Shown(responses, k, s.seen)
    {
      assert responses[1..][k - 1] == responses[k];
    }
  }

  /**
   * The session ends early only on a last package: a session that succeeds
   * without sending every frame stopped on a reply to its final frame that
   * was a full server response flagged as the last package.
   */
  lemma {:induction false} StreamEarlyStop(frames: seq<Result<Bytes, Error>>, responses: seq<Result<Response, Error>>, s: Session)
    ensures var t := Stream(frames, responses, s);
      t.outcome.Success? && |t.sent| < |frames| ==>
        && 0 < |t.sent| <= |responses|
        && responses[|t.sent| - 1].Success?
        && responses[|t.sent| - 1].value.messageType == FullServerResponse
        && responses[|t.sent| - 1].value.isLastPackage
    decreases |frames|
  {
    if frames != [] {
      match Step(frames[0], responses, s)
      case Done(_) =>
      case Next(msg, s2) =>
        var rest := Stream(frames[1..], Rest(responses), s2);
        StreamEarlyStop(frames[1..], Rest(responses), s2);
        var t := Stream(frames, responses, s);
        assert t.sent == [msg] + rest.sent;
        if t.outcome.Success? && |t.sent| < |frames| {
          assert Rest(responses)[|rest.sent| - 1] == responses[|t.sent| - 1];
        }
    }
  }

  /**
   * A session that ends normally, neither failing nor stopping early,
   * sends every frame.
   */
  lemma {:induction false} StreamCompletes(frames: seq<Result<Bytes, Error>>, responses: seq<Result<Response, Error>>, s: Session)
    requires forall k :: 0 <= k < |responses| ==>
      responses[k].Success? ==> !responses[k].value.isLastPackage
    ensures var t := Stream(frames, responses, s);
      t.outcome.Success? ==> |t.sent| == |frames|
  {
    StreamFrames(frames, responses, s);
    StreamEarlyStop(frames, responses, s);
  }

  /**
   * A session succeeds when nothing in it can raise: every frame is built,
   * a reply comes for every frame, every reply parses, and every full
   * response carries a readable transcript.
   */
  lemma {:induction false} StreamSucceeds(frames: seq<Result<Bytes, Error>>, responses: seq<Result<Response, Error>>, s: Session)
    requires forall k :: 0 <= k < |frames| ==> frames[k].Success?
    requires |responses| >= |frames|
    requires forall k :: 0 <= k < |responses| ==>
      && responses[k].Success?
      && (responses[k].value.messageType == FullServerResponse ==> TranscriptText(responses[k].value).Success?)
    ensures Stream(frames, responses, s).outcome.Success?
    decreases |frames|
  {
    if frames != [] {
      match Step(frames[0], responses, s)
      case Done(_) =>
      case Next(msg, s2) =>
        var rs := Rest(responses);
        assert rs == responses[1..];
        forall k | 0 <= k < |frames[1..]|
          ensures frames[1..][k].Success?
        {
          assert frames[1..][k] == frames[k + 1];
        }
        forall k | 0 <= k < |rs|
          ensures rs[k].Success?
          ensures rs[k].value.messageType == FullServerResponse ==> TranscriptText(rs[k].value).Success?
        {
          assert rs[k] == responses[k + 1];
        }
        StreamSucceeds(frames[1..], rs, s2);
    }
  }

  /**
   * A session that fails, fails in the round of its last frame, n frames
   * having gone out: frame n could not be built, or the server had closed
   * before the reply to frame n - 1, or that reply did not parse, or it was
   * a full response whose transcript could not be read.
   */
  lemma {:induction false} StreamFailure(frames: seq<Result<Bytes, Error>>, responses: seq<Result<Response, Error>>, s: Session)
    ensures var t := Stream(frames, responses, s);
      var n := |t.sent|;
      t.outcome.Failure? ==>
        || (n < |frames| && frames[n] == Failure(t.outcome.error))
        || (0 < n && |responses| < n && t.outcome.error == ConnectionClosed)
        || (0 < n <= |responses| && responses[n - 1] == Failure(t.outcome.error))
        || (&& 0 < n <= |responses| && responses[n - 1].Success?
            && responses[n - 1].value.messageType == FullServerResponse
            && TranscriptText(responses[n - 1].value) == Failure(t.outcome.error))
    decreases |frames|
  {
    if frames != [] {
      var t := Stream(frames, responses, s);
      match Step(frames[0], responses, s)
      case Done(d) =>
      case Next(msg, s2) =>
        var rs := Rest(responses);
        var rest := Stream(frames[1..], rs, s2);
        StreamFailure(frames[1..], rs, s2);
        assert t.sent == [msg] + rest.sent;
        assert rs == responses[1..];
        var n := |rest.sent|;
        if rest.outcome.Failure? {
          if n < |frames[1..]| && frames[1..][n] == Failure(rest.outcome.error) {
            assert frames[n + 1] == frames[1..][n];
          } else if 0 < n <= |rs| {
            assert rs[n - 1] == responses[n];
          }
        }
    }
  }

  /**
   * Errors end the session: every round before the last read a reply that
   * parsed and, if fresh, carried a readable transcript; and the session
   * fails with the error of the last round's reply when that reply did not
   * parse, or was fresh and its transcript could not be read, or was
   * missing because the server had closed.
   */
  lemma {:induction false} StreamErrorsEnd(frames: seq<Result<Bytes, Error>>, responses: seq<Result<Response, Error>>, s: Session)
    ensures var t := Stream(frames, responses, s);
      var n := |t.sent|;
      && n <= |responses| + 1
      && (forall k :: 0 <= k < n - 1 ==>
            responses[k].Success? && (Fresh(responses, k, s.seen) ==> TranscriptText(responses[k].value).Success?))
      && (0 < n && |responses| < n ==> t.outcome == Failure(ConnectionClosed))
      && (0 < n <= |responses| && responses[n - 1].Failure? ==> t.outcome == Failure(responses[n - 1].error))
      && (0 < n <= |responses| && Fresh(responses, n - 1, s.seen) && TranscriptText(responses[n - 1].value).Failure? ==>
            t.outcome == Failure(TranscriptText(responses[n - 1].value).error))
    decreases |frames|
  {
    if frames != [] {
      var t := Stream(frames, responses, s);
      match Step(frames[0], responses, s)
      case Done(d) =>
      case Next(msg, s2) =>
        var r0 := responses[0].value;
        var rs := Rest(responses);
        var rest := Stream(frames[1..], rs, s2);
        StreamErrorsEnd(frames[1..], rs, s2);
        FreshShift(responses, s, r0, s2);
        assert t.sent == [msg] + rest.sent;
        assert rs == responses[1..];
        var m := |rest.sent|;
        forall k | 1 <= k < m
          ensures responses[k].Success? && (Fresh(responses, k, s.seen) ==> TranscriptText(responses[k].value).Success?)
        {
          assert rs[k - 1] == responses[k];
        }
        if 0 < m <= |rs| {
          assert rs[m - 1] == responses[m];
        }
    }
  }

  /** The chunks a session streams; none where slicing fails. */
  function ChunksOf(data: Bytes, segSize: int): seq<Chunk>
  {
    match Sliced(data, segSize)
    case Success(chunks) => chunks
    case Failure(_) => []
  }

  /**
   * The frames of a whole session: the configuration frame first, then the
   * audio frames of the chunks in order, numbered from 2; at most one frame
   * per chunk besides the configuration frame.
   */
  lemma RunFrames(cfg: ClientConfig, data: Bytes, segSize: int, server: seq<Bytes>, enc: Encoders, dec: Decoders)
    ensures var t := Run(cfg, data, segSize, server, enc, dec);
      var chunks := ChunksOf(data, segSize);
      && |t.sent| <= |chunks| + 1
      && (|t.sent| > 0 <==> ConfigFrame(cfg, enc).Success?)
      && (|t.sent| > 0 ==> t.sent[0] == ConfigFrame(cfg, enc).value)
      && forall k :: 1 <= k < |t.sent| ==> AudioFrames(chunks, 2, enc)[k - 1] == Success(t.sent[k])
  {
    var t := Run(cfg, data, segSize, server, enc, dec);
    var chunks := ChunksOf(data, segSize);
    if ConfigFrame(cfg, enc).Success? && server != [] && Sliced(data, segSize).Success? {
      var first := ConfigFrame(cfg, enc).value;
      var frames := AudioFrames(chunks, 2, enc);
      var rest := Stream(frames, ParseAll(server[1..], dec), Session("", {}));
      StreamFrames(frames, ParseAll(server[1..], dec), Session("", {}));
      assert t.sent == [first] + rest.sent;
      forall k | 1 <= k < |t.sent|
        ensures frames[k - 1] == Success(t.sent[k])
      {
        assert t.sent[k] == rest.sent[k - 1];
      }
    }
  }

  /** A request frame's message type, flags and sequence number field. */
  predicate FrameHeads(frame: Bytes, messageType: nibble, flags: nibble, sequence: int)
  {
    && |frame| >= 12
    && SplitHeader(frame).messageType == messageType
    && SplitHeader(frame).flags == flags
    && FromBytes(frame[4..8], true) == sequence
  }

  /**
   * Sequence numbering on the wire: the configuration frame is a full
   * client request with sequence number 1; the k-th frame after it is an
   * audio-only request with sequence number k + 1, flagged
   * NEG_WITH_SEQUENCE and negated on the final chunk, POS_SEQUENCE
   * otherwise.
   */
  lemma RunSequenceNumbers(cfg: ClientConfig, data: Bytes, segSize: int, server: seq<Bytes>, enc: Encoders, dec: Decoders)
    ensures var t := Run(cfg, data, segSize, server, enc, dec);
      var chunks := ChunksOf(data, segSize);
      && (|t.sent| > 0 ==> FrameHeads(t.sent[0], FullClientRequest, PosSequence, 1))
      && forall k :: 1 <= k < |t.sent| && k <= |chunks| ==>
        if chunks[k - 1].last then FrameHeads(t.sent[k], AudioOnlyRequest, NegWithSequence, -(k + 1))
        else FrameHeads(t.sent[k], AudioOnlyRequest, PosSequence, k + 1)
  {
    var t := Run(cfg, data, segSize, server, enc, dec);
    var chunks := ChunksOf(data, segSize);
    RunFrames(cfg, data, segSize, server, enc, dec);
    if |t.sent| > 0 {
      ConfigFrameFields(cfg, enc);
    }
    forall k | 1 <= k < |t.sent| && k <= |chunks|
      ensures if chunks[k - 1].last then FrameHeads(t.sent[k], AudioOnlyRequest, NegWithSequence, -(k + 1))
        else FrameHeads(t.sent[k], AudioOnlyRequest, PosSequence, k + 1)
    {
      AudioFrameNumbering(chunks, enc, k - 1, t.sent[k]);
    }
  }

  /** The audio frame of the k-th chunk (from 0) is numbered k + 2, negated and flagged on the final chunk. */
  lemma AudioFrameNumbering(chunks: seq<Chunk>, enc: Encoders, k: nat, frame: Bytes)
    requires k < |chunks| && AudioFrames(chunks, 2, enc)[k] == Success(frame)
    ensures if chunks[k].last then FrameHeads(frame, AudioOnlyRequest, NegWithSequence, -(k + 2))
      else FrameHeads(frame, AudioOnlyRequest, PosSequence, k + 2)
  {
    AudioFrameAt(chunks, 2, enc, k);
    AudioFrameFields(k + 2, chunks[k], enc);
  }

  /**
   * The transcript a session returns is that of the last audio reply it
   * showed, or "" if it showed none; the handshake acknowledgement
   * `server[0]` is never read as a reply.
   */
  lemma RunLatestText(cfg: ClientConfig, data: Bytes, segSize: int, server: seq<Bytes>, enc: Encoders, dec: Decoders)
    ensures var t := Run(cfg, data, segSize, server, enc, dec);
      var replies := ParseAll(Rest(server), dec);
      t.outcome.Success? ==>
        && 0 < |t.sent| <= |server|
        && (|| (&& t.outcome.value == ""
                && forall k :: 0 <= k < |t.sent| - 1 && k < |replies| ==> !Shown(replies, k, {}))
            || exists j :: && 0 <= j < |t.sent| - 1 && j < |replies| && Shown(replies, j, {})
                           && t.outcome == TranscriptText(replies[j].value)
                           && forall k :: j < k < |t.sent| - 1 && k < |replies| ==> !Shown(replies, k, {}))
  {
    var t := Run(cfg, data, segSize, server, enc, dec);
    if ConfigFrame(cfg, enc).Success? && server != [] && Sliced(data, segSize).Success? {
      var first := ConfigFrame(cfg, enc).value;
      var frames := AudioFrames(ChunksOf(data, segSize), 2, enc);
      var replies := ParseAll(server[1..], dec);
      var rest := Stream(frames, replies, Session("", {}));
      StreamLatestText(frames, replies, Session("", {}));
      assert t.sent == [first] + rest.sent;
      assert Rest(server) == server[1..];
    }
  }

  /**
   * A repeated sequence number is dropped: after a fresh full server
   * response, a second full server response with the same sequence number,
   * or a second one without any, changes nothing and does not stop the
   * session, whatever it carries.
   */
  lemma DuplicateDropped(s: Session, r1: Response, r2: Response)
    requires r1.messageType == FullServerResponse && Accept(s, r1).Success?
    requires r2.sequence == r1.sequence
    ensures var s1 := Accept(s, r1).value.0;
      Accept(s1, r2) == Success((s1, false))
  {
  }
}

=== FILE: slicing.dfy ===
/**
 * `slice_data`: cutting the audio bytes into consecutive chunks of a fixed
 * size and flagging the one that reaches the end.
 */
module Slicing {
  import opened Wrappers
  import opened Wire
  import opened Errors

  datatype Chunk = Chunk(data: Bytes, last: bool)

  /**
   * The chunks, defined by recursion on the remaining bytes: a full chunk
   * while more than `size` bytes remain, then one final chunk.
   */
  function Chunks(data: Bytes, size: nat): seq<Chunk>
    requires size > 0
    decreases |data|
  {
    if |data| == 0 then []
    else if |data| <= size then [Chunk(data, true)]
    else [Chunk(data[..size], false)] + Chunks(data[size..], size)
  }

  /** The chunks' bytes laid end to end. */
  function Concat(chunks: seq<Chunk>): Bytes
  {
    if chunks == [] then [] else chunks[0].data + Concat(chunks[1..])
  }

  /**
   * What `slice_data` yields for any chunk size: `range` raises ValueError
   * for a step of 0 and yields no offsets for a negative step.
   */
  function Sliced(data: Bytes, size: int): Result<seq<Chunk>, Error>
  {
    if size == 0 then Failure(ZeroSegment)
    else if size < 0 then Success([])
    else Success(Chunks(data, size))
  }

  /**
   * `slice_data`: walks the offsets 0, size, 2 * size, ... below the length,
   * yielding `data[off:end]` with `end = min(off + size, len(data))` and
   * flagging the chunk whose end is the end of the data.
   */
  method SliceData(data: Bytes, size: int) returns (r: Result<seq<Chunk>, Error>)
    ensures r == Sliced(data, size)
  {
    if size == 0 {
      return Failure(ZeroSegment);  // range() rejects a zero step
    }
    if size < 0 {
      return Success([]);  // a negative step yields no offset
    }
    var chunks := [];
    var off := 0;
    while off < |data|
      invariant 0 <= off && size > 0
      invariant off < |data| ==> chunks + Chunks(data[off..], size) == Chunks(data, size)
      invariant off >= |data| ==> chunks == Chunks(data, size)
      decreases |data| - off
    {
      var end := if off + size < |data| then off + size else |data|;
      ghost var rest := data[off..];
      ghost var old_chunks := chunks;
      chunks := chunks + [Chunk(data[off..end], end == |data|)];
      if off + size < |data| {
        assert rest[size..] == data[off + size..];
        assert data[off..end] == rest[..size];
        assert Chunks(rest, size) == [Chunk(rest[..size], false)] + Chunks(rest[size..], size);
        assert chunks + Chunks(data[off + size..], size) == old_chunks + Chunks(rest, size);
      } else {
        assert data[off..end] == rest;
        assert Chunks(rest, size) == [Chunk(rest, true)];
      }
      off := off + size;
    }
    if size > 0 && |data| == 0 {
      assert chunks == [] == Chunks(data, size);
    }
    return Success(chunks);
  }

  /** Laying the chunks end to end gives back the data. */
  lemma {:induction false} ChunksConcat(data: Bytes, size: nat)
    requires size > 0
    ensures Concat(Chunks(data, size)) == data
    decreases |data|
  {
    if |data| > size {
      var rest := Chunks(data[size..], size);
      ChunksConcat(data[size..], size);
      assert ([Chunk(data[..size], false)] + rest)[1..] == rest;
      assert data[..size] + data[size..] == data;
    } else if |data| > 0 {
      assert Concat([Chunk(data, true)]) == data + Concat([]);
    }
  }

  /**
   * Every chunk is non-empty and at most `size` long; all but the last are
   * exactly `size` long; the last one, and only it, is flagged final.
   */
  predicate WellCut(cs: seq<Chunk>, size: nat)
  {
    forall k :: 0 <= k < |cs| ==>
      && 0 < |cs[k].data| <= size
      && (k < |cs| - 1 ==> |cs[k].data| == size)
      && (cs[k].last <==> k == |cs| - 1)
  }

  lemma {:induction false} ChunksShape(data: Bytes, size: nat)
    requires size > 0
    ensures WellCut(Chunks(data, size), size)
    decreases |data|
  {
    if |data| > size {
      var rest := Chunks(data[size..], size);
      ChunksShape(data[size..], size);
      var cs := Chunks(data, size);
      assert cs == [Chunk(data[..size], false)] + rest;
      assert |rest| > 0;
      forall k | 0 <= k < |cs|
        ensures 0 < |cs[k].data| <= size
        ensures k < |cs| - 1 ==> |cs[k].data| == size
        ensures cs[k].last <==> k == |cs| - 1
      {
        if k > 0 {
          assert cs[k] == rest[k - 1];
        }
      }
    }
  }

  /** There are ceil(len / size) chunks; in particular empty data gives none. */
  lemma {:induction false} ChunksCount(data: Bytes, size: nat)
    requires size > 0
    ensures |Chunks(data, size)| == (|data| + size - 1) / size
    decreases |data|
  {
    if |data| > size {
      ChunksCount(data[size..], size);
      var n := |data| - size;
      DivStep(n + size - 1, size);
    } else if |data| > 0 {
      DivOne(|data| + size - 1, size);
    } else {
      DivZero(size - 1, size);
    }
  }

  lemma DivStep(a: nat, k: nat)
    requires k > 0
    ensures (a + k) / k == a / k + 1
  {
    var q, m := a / k, a % k;
    assert a + k == (q + 1) * k + m;
    DivModUnique(a + k, k, q + 1, m);
  }

  lemma DivOne(a: nat, k: nat)
    requires k > 0 && k <= a < 2 * k
    ensures a / k == 1
  {
    DivModUnique(a, k, 1, a - k);
  }

  lemma DivZero(a: nat, k: nat)
    requires k > 0 && a < k
    ensures a / k == 0
  {
    DivModUnique(a, k, 0, a);
  }
}

=== FILE: wire.dfy ===
/**
 * Bytes on the wire: the big-endian integer encodings that Python's
 * `int.to_bytes` and `int.from_bytes` produce, and Python's clamping slices.
 */
module Wire {
  import opened Wrappers

  type byte = x: int | 0 <= x < 0x100
  type Bytes = seq<byte>

  const TwoTo31: int := 0x8000_0000
  const TwoTo32: int := 0x1_0000_0000

  function Pow256(n: nat): (r: nat)
    ensures r >= 1
  {
    if n == 0 then 1 else 0x100 * Pow256(n - 1)
  }

  /** `int.from_bytes(s, "big")`: the bytes as an unsigned big-endian number. */
  function Unsigned(s: Bytes): (r: nat)
    ensures r < Pow256(|s|)
  {
    if s == [] then 0 else 0x100 * Unsigned(s[..|s| - 1]) + s[|s| - 1]
  }

  lemma MulLeft(a: nat, b: nat, p: nat)
    requires a <= b
    ensures a * p <= b * p
  {
  }

  /** The leading byte weighs 256^(|s|-1). */
  lemma {:induction false} UnsignedFront(s: Bytes)
    requires |s| > 0
    ensures Unsigned(s) == s[0] * Pow256(|s| - 1) + Unsigned(s[1..])
    decreases |s|
  {
    var n := |s|;
    if n > 1 {
      var init, tail := s[..n - 1], s[1..];
      UnsignedFront(init);
      assert init[0] == s[0] && init[1..] == tail[..n - 2] && tail[n - 2] == s[n - 1];
      assert Unsigned(tail) == 0x100 * Unsigned(init[1..]) + s[n - 1];
      assert Unsigned(s) == 0x100 * Unsigned(init) + s[n - 1];
      ScaleProduct(s[0], Pow256(n - 2));
    }
  }

  lemma ScaleProduct(a: int, p: int)
    ensures 0x100 * (a * p) == a * (0x100 * p)
  {
  }

  /** The top bit of the leading byte is set exactly in the upper half of the range. */
  lemma SignBit(s: Bytes)
    requires |s| > 0
    ensures s[0] >= 0x80 <==> 2 * Unsigned(s) >= Pow256(|s|)
  {
    UnsignedFront(s);
    var p := Pow256(|s| - 1);
    if s[0] >= 0x80 {
      MulLeft(0x80, s[0], p);
    } else {
      MulLeft(s[0], 0x7F, p);
    }
  }

  /**
   * `int.from_bytes(s, "big", signed=signed)`. Signed, a leading byte of 0x80
   * or more makes the value negative (two's complement over |s| bytes); the
   * empty slice reads as 0 either way.
   */
  function FromBytes(s: Bytes, signed: bool): (r: int)
    ensures !signed ==> 0 <= r < Pow256(|s|)
    ensures signed ==> -(Pow256(|s|) as int) <= 2 * r < Pow256(|s|)
    ensures signed ==> (r < 0 <==> |s| > 0 && s[0] >= 0x80)
  {
    var u := Unsigned(s);
    if s != [] then
      assert s[0] >= 0x80 <==> 2 * u >= Pow256(|s|) by { SignBit(s); }
      if signed && s[0] >= 0x80 then u - Pow256(|s|) else u
    else u
  }

  /** `u.to_bytes(n, "big")` once the range is checked: the n low-order bytes of u, most significant first. */
  function BigEndian(u: nat, n: nat): (r: Bytes)
    ensures |r| == n
  {
    if n == 0 then [] else BigEndian(u / 0x100, n - 1) + [u % 0x100]
  }

  /** Quotient and remainder are determined by any decomposition with a remainder in range. */
  lemma DivModUnique(u: int, k: int, q: int, m: int)
    requires k > 0 && 0 <= m < k && u == q * k + m
    ensures u / k == q && u % k == m
  {
    var q', m' := u / k, u % k;
    if q' > q {
      assert (q' - q) * k >= k by { MulLeft(1, q' - q, k); }
    } else if q' < q {
      assert (q - q') * k >= k by { MulLeft(1, q - q', k); }
    }
  }

  /** Reading back the bytes of a number in range gives the number. */
  lemma {:induction false} UnsignedOfBigEndian(u: nat, n: nat)
    requires u < Pow256(n)
    ensures Unsigned(BigEndian(u, n)) == u
  {
    if n > 0 {
      var r := BigEndian(u, n);
      assert r[..n - 1] == BigEndian(u / 0x100, n - 1) && r[n - 1] == u % 0x100;
      assert u / 0x100 < Pow256(n - 1);
      UnsignedOfBigEndian(u / 0x100, n - 1);
      assert Unsigned(r) == 0x100 * Unsigned(r[..n - 1]) + r[n - 1];
    }
  }

  /** Every byte string is the encoding of the number it reads as. */
  lemma {:induction false} BigEndianOfUnsigned(s: Bytes)
    ensures BigEndian(Unsigned(s), |s|) == s
    decreases |s|
  {
    if s != [] {
      var init := s[..|s| - 1];
      DivModUnique(Unsigned(s), 0x100, Unsigned(init), s[|s| - 1]);
      BigEndianOfUnsigned(init);
    }
  }

  /**
   * `v.to_bytes(4, "big", signed=True)`: four bytes of two's complement, or
   * None where Python raises OverflowError.
   */
  function Int32BE(v: int): (r: Option<Bytes>)
    ensures r.Some? <==> -TwoTo31 <= v < TwoTo31
    ensures r.Some? ==> |r.value| == 4
  {
    if -TwoTo31 <= v < TwoTo31 then Some(BigEndian(if v < 0 then v + TwoTo32 else v, 4)) else None
  }

  /** `int.from_bytes(..., signed=True)` inverts `Int32BE` on its whole range. */
  lemma Int32RoundTrip(v: int)
    requires -TwoTo31 <= v < TwoTo31
    ensures FromBytes(Int32BE(v).value, true) == v
  {
    var u := if v < 0 then v + TwoTo32 else v;
    assert Pow256(4) == TwoTo32;
    UnsignedOfBigEndian(u, 4);
    SignBit(BigEndian(u, 4));
  }

  /** Every four-byte string is the signed encoding of the number it reads as. */
  lemma Int32Canonical(s: Bytes)
    requires |s| == 4
    ensures Int32BE(FromBytes(s, true)) == Some(s)
  {
    assert Pow256(4) == TwoTo32;
    BigEndianOfUnsigned(s);
  }

  /** `v.to_bytes(4, "big")`: four unsigned bytes, or None on OverflowError. */
  function UInt32BE(v: int): (r: Option<Bytes>)
    ensures r.Some? <==> 0 <= v < TwoTo32
    ensures r.Some? ==> |r.value| == 4
  {
    if 0 <= v < TwoTo32 then Some(BigEndian(v, 4)) else None
  }

  /** `int.from_bytes(..., "big")` inverts `UInt32BE` on its whole range. */
  lemma UInt32RoundTrip(v: int)
    requires 0 <= v < TwoTo32
    ensures FromBytes(UInt32BE(v).value, false) == v
  {
    assert Pow256(4) == TwoTo32;
    UnsignedOfBigEndian(v, 4);
  }

  /** Every four-byte string is the unsigned encoding of the number it reads as. */
  lemma UInt32Canonical(s: Bytes)
    requires |s| == 4
    ensures UInt32BE(FromBytes(s, false)) == Some(s)
  {
    assert Pow256(4) == TwoTo32;
    BigEndianOfUnsigned(s);
  }

  /** A four-byte field read signed is its unsigned reading, wrapped at 2^31. */
  lemma SignedOfUnsigned(s: Bytes)
    requires |s| == 4
    ensures var u := FromBytes(s, false);
      FromBytes(s, true) == if u < TwoTo31 then u else u - TwoTo32
  {
    assert Pow256(4) == TwoTo32;
    SignBit(s);
  }

  /** Python's `s[:n]`. */
  function Take(s: Bytes, n: nat): (r: Bytes)
    ensures |r| == if n <= |s| then n else |s|
    ensures r <= s
  {
    if n <= |s| then s[..n] else s
  }

  /** Python's `s[i:]`. */
  function Drop(s: Bytes, i: nat): (r: Bytes)
    ensures |r| == if i <= |s| then |s| - i else 0
    ensures Take(s, i) + r == s
  {
    if i <= |s| then s[i..] else []
  }
}

=== FILE: wrappers.dfy ===
/** Option and Result, the failure-compatible wrappers used throughout the model. */
module Wrappers {

  datatype Option<+T> = None | Some(value: T) {
    predicate IsFailure() { None? }

    function PropagateFailure<U>(): Option<U>
      requires None?
    {
      None
    }

    function Extract(): T
      requires Some?
    {
      value
    }

    /** Turns a missing value into the given error. */
    function ToResult<E>(error: E): Result<T, E> {
      match this
      case Some(v) => Success(v)
      case None => Failure(error)
    }
  }

  datatype Result<+R, +E> = Success(value: R) | Failure(error: E) {
    predicate IsFailure() { Failure? }

    function PropagateFailure<U>(): Result<U, E>
      requires Failure?
    {
      Failure(error)
    }

    function Extract(): R
      requires Success?
    {
      value
    }
  }
}
